=== FILE: README.md ===
# Initiative portal front end: the event handlers, modelled in Dafny

The front end of the initiative management portal is a React application
over a REST API. Most of it renders markup. Its behaviour lives in a
handful of event handlers and small helpers:

- the drag-to-reorder backlog list and its rank column;
- the queue of pending priority-change requests, with its five-character
  reason rule;
- the four dialogs that send a free-text reason: review a cancellation,
  review an initiative, request a cancellation, request a priority change;
- the user administration screen: list fetch, edit, delete and create
  dialogs, the user-type checkboxes, and the count footer;
- the read-only user directory and its search box;
- the navigation bar's avatar initials;
- the initiative details dialog: form defaults, the editability gate,
  saving, and the comment thread;
- the two initiative list pages: filter cleaning, fetch normalisation, the
  API-to-row mapping, and the dialog wiring (the cancellation-review
  handler of the initiatives page is never called, see "## Left out");
- the sector picker's value encoding.

Each handler is written as a pure function. It takes an explicit state
record and the already-settled outcome of its API call. It returns the next
state, the request it sent (if any), and which callbacks it fired.
`onSuccess` and "close the dialog" become booleans in the result. A
"refetch" flag marks where the handler calls the list fetch again.

The shared JavaScript behaviour is modelled once:

- `Values.OrElse` is `x || fallback` on a string that may be missing.
- `Values.OrEmpty` is `data || []`.
- `Text` holds `trim`, `toLowerCase` / `toUpperCase` and `includes`. It
  also holds `String(n)` and `Number(s)` for integers.
- `Seqs.Filter` is `Array.prototype.filter`.
- `Seqs.Move` is dnd-kit's `arrayMove`.

Module layout follows the source files. There is one module per component
or page: `PrioritizationList`, `ChangeRequests`, `ReviewCancellation`,
`ReviewInitiative`, `RequestCancellation`, `RequestChange`, `UsersPage`,
`KeyUsers`, `Navbar`, `InitiativeDetails`, `PrioritizationPage`,
`InitiativesPage` and `SectorSelect`. Code shared between them sits in
`Filters` (filter cleaning) and `ReasonForm` (the reason dialogs' common
state). `ReasonRules` compares the two reason rules.

Two reason rules are in force:

- The change-request queue asks for at least five UTF-16 code units after
  trimming.
- The other four dialogs only ask for a reason that is not blank after
  trimming.

The model keeps the rules apart. `ReasonRules.FourLettersSplitTheRules`
exhibits a reason that one rule accepts and the other refuses.

## Model

| member | source | states |
|---|---|---|
| PrioritizationList.FindIndex | src/components/PrioritizationList.tsx:37-38 | the index found holds the id and no earlier row does; -1 exactly when no row has the id |
| PrioritizationList.HandleDragEnd | src/components/PrioritizationList.tsx:33-42 | no drop target, or a drop on the dragged row itself, leaves the list alone and calls no `onReorder`; any other drop yields a list of the same length holding the same rows (a permutation), with the dragged row now at the index the target row had |
| PrioritizationList.DropShiftsOnlyBetween | src/components/PrioritizationList.tsx:40 | rows outside [min(old,new), max(old,new)] keep their index; rows inside shift by exactly one towards the old index |
| PrioritizationList.MoveKeepsDistinctIds | src/components/PrioritizationList.tsx:40 | a move keeps the row ids (the React keys) distinct |
| PrioritizationList.FindDistinct | src/components/PrioritizationList.tsx:37-38 | with distinct ids, looking up a row's id finds that row |
| PrioritizationList.DropUndo | src/components/PrioritizationList.tsx:33-42 | dragging the moved row back onto the row now at its old index restores the original list |
| PrioritizationList.Ranks | src/components/PrioritizationItem.tsx:74 | the rank column shows exactly the numbers 1..n, strictly increasing down the list |
| PrioritizationList.RanksCover | src/components/PrioritizationList.tsx:69-70 | ranks `index + 1` cover every number from 1 to the list length |
| Seqs.Move | src/components/PrioritizationList.tsx:40 | `arrayMove` keeps the length and the multiset of rows and puts the moved element at the target index |
| Seqs.MoveShifts | src/components/PrioritizationList.tsx:40 | elements outside the moved range stay put, elements inside shift by one towards the source index |
| Seqs.MoveBack | src/components/PrioritizationList.tsx:40 | moving from `to` back to `from` undoes a move |
| ChangeRequests.OnOpenChange | src/components/ChangeRequestsModal.tsx:39-45 | opening starts a fetch and discards any half-finished review and its reason; closing changes nothing |
| ChangeRequests.FetchDone | src/components/ChangeRequestsModal.tsx:47-58 | the list becomes the response's data, or empty when the data is absent or the fetch failed; the review state is untouched |
| ChangeRequests.HandleOpenReview | src/components/ChangeRequestsModal.tsx:60-63 | records the request id and the verdict, resets the reason to "", leaves the list alone |
| ChangeRequests.HandleBack | src/components/ChangeRequestsModal.tsx:180 | the "Voltar" button leaves the review without touching the list |
| ChangeRequests.WithoutId | src/components/ChangeRequestsModal.tsx:73 | keeps exactly the requests whose id differs, every copy of each, in their original order, and drops every copy of the others |
| ChangeRequests.HandleConfirmReview | src/components/ChangeRequestsModal.tsx:65-82 | nothing under review, or a trimmed reason shorter than 5 UTF-16 code units, sends nothing; success removes every request with the reviewed id and keeps every copy of the others in their order, clears the review and notifies the parent; failure leaves list and review unchanged |
| ChangeRequests.ConfirmEnabledIffSends | src/components/ChangeRequestsModal.tsx:187 | with a review open and nothing processing, the confirm button (trimmed reason of at least 5 UTF-16 code units) is enabled exactly when confirming sends the review |
| ChangeRequests.HintXorEnabled | src/components/ChangeRequestsModal.tsx:111 | for a non-blank reason the "minimum 5" hint and an enabled confirm button exclude each other, and when idle one of them shows |
| ReasonForm.Begin | src/components/ReviewCancellationModal.tsx:32-33 | each attempt starts loading and clears the previous error, keeping the reason |
| ReasonForm.Finish | src/components/ReviewCancellationModal.tsx:36-44 | success empties the reason and fires `onSuccess` and close; failure keeps the reason and shows the server's `error` or the fallback |
| ReasonForm.BlankIffWhitespace | src/components/ReviewCancellationModal.tsx:30 | `!reason.trim()` holds exactly for an all-whitespace reason |
| ReviewCancellation.HandleSubmit | src/components/ReviewCancellationModal.tsx:29-46 | a null or 0 request id, or a blank reason, does nothing; otherwise the error is cleared, the review is sent with the reason as typed, success closes and resets the reason, failure shows the server's message or "Ocorreu um erro ao processar a revisão." |
| ReviewCancellation.ConfirmEnabledIffSends | src/components/ReviewCancellationModal.tsx:101 | with a request id and not loading, the confirm button is enabled exactly when submitting sends the review |
| ReviewInitiative.HandleSubmit | src/components/ReviewInitiativeModal.tsx:29-46 | a null or 0 initiative id, or a blank reason, does nothing; otherwise as above with the fallback "Ocorreu um erro ao processar a avaliação." |
| ReviewInitiative.ConfirmEnabledIffSends | src/components/ReviewInitiativeModal.tsx:100 | with an initiative id and not loading, the confirm button is enabled exactly when submitting sends the review |
| RequestCancellation.HandleSubmit | src/components/RequestCancellationModal.tsx:28-45 | a null or "" initiative id, or a blank reason, does nothing; otherwise as above with the fallback "Ocorreu um erro ao solicitar o cancelamento." |
| RequestCancellation.ConfirmEnabledIffSends | src/components/RequestCancellationModal.tsx:91 | with an initiative id and not loading, the confirm button is enabled exactly when submitting sends the request |
| RequestChange.HandleSubmit | src/components/RequestChangeModal.tsx:28-42 | a blank reason does nothing; otherwise year and order are forwarded unchanged with the reason; success closes and calls `onSuccess` but keeps the reason; failure keeps the dialog open and fires nothing |
| RequestChange.SendEnabledIffSends | src/components/RequestChangeModal.tsx:72 | when not loading, the send button is enabled exactly when submitting sends the request |
| ReasonRules.FourLettersSplitTheRules | src/components/ChangeRequestsModal.tsx:67 | the four-letter reason "okay" is sent by the cancellation review (src/components/ReviewCancellationModal.tsx:30) but refused by the change-request queue |
| ReasonRules.ThreeEmojiAreLongEnough | src/components/ChangeRequestsModal.tsx:67 | a reason of three emoji, three characters but six UTF-16 code units, passes the queue's length rule |
| ReasonRules.LongEnoughIsNonBlank | src/components/ChangeRequestsModal.tsx:67 | every reason the queue accepts is non-blank too |
| UsersPage.FetchUsers | src/pages/Users.tsx:100-113 | a successful response replaces the list; an unsuccessful one keeps it; a thrown error keeps it and shows the error's message, or "Erro ao carregar usuários" |
| UsersPage.ErrorText | src/pages/Users.tsx:166-175 | a failed mutation shows the server's `message`, else the dialog's fallback; with no response, "Erro ao conectar com o servidor" |
| UsersPage.HandleEdit | src/pages/Users.tsx:131-140 | opening the edit dialog copies name and email, resets the password to "" and clears the error |
| UsersPage.Payload | src/pages/Users.tsx:151-157 | the edit payload always carries name and email, and carries the password exactly when one was typed |
| UsersPage.ConfirmEdit | src/pages/Users.tsx:142-180 | no target sends nothing; otherwise the payload goes to the target's id; success closes, clears the target and refetches; failure keeps the dialog open with the error text |
| UsersPage.HandleDelete | src/pages/Users.tsx:182-186 | opens the confirmation on the user with no error |
| UsersPage.ConfirmDelete | src/pages/Users.tsx:188-216 | no target sends nothing; otherwise the target's id is deleted; success closes and refetches; failure keeps the dialog with the error text |
| UsersPage.HandleAddUser | src/pages/Users.tsx:218-222 | opens the create dialog on an empty form with no type ids |
| UsersPage.ConfirmCreate | src/pages/Users.tsx:224-257 | posts the form as it stands; success closes, resets the form to empty and refetches; failure keeps the form and shows the error text |
| UsersPage.Toggle | src/pages/Users.tsx:262-264 | membership flips for the toggled id and only for it; a present id is removed with all its copies, every other id keeping its copies and order; an absent id is appended at the end |
| UsersPage.HandleTypeToggle | src/pages/Users.tsx:259-266 | only the form's type ids change |
| UsersPage.ToggleTwiceAbsent | src/pages/Users.tsx:259-266 | toggling an absent id twice restores the list |
| UsersPage.ToggleKeepsNoDuplicates | src/pages/Users.tsx:259-266 | a duplicate-free list of type ids stays duplicate-free |
| UsersPage.FooterPlural | src/pages/Users.tsx:381 | the footer ends in the plural "s" exactly when the count is not 1 |
| KeyUsers.FetchUsers | src/pages/KeyUsersPage.tsx:41-56 | a successful array response replaces the list; an unsuccessful or non-array one empties it; a thrown error keeps it |
| KeyUsers.FilteredUsers | src/pages/KeyUsersPage.tsx:58-62 | a user is kept exactly when the lower-cased name, email or sector name (missing as "") includes the lower-cased term; a kept user keeps all its copies, in list order; an empty term keeps everyone |
| KeyUsers.SearchIgnoresCase | src/pages/KeyUsersPage.tsx:59-61 | terms differing only in letter case give the same result |
| KeyUsers.SearchUpperCase | src/pages/KeyUsersPage.tsx:59-61 | the upper-cased term finds the same users |
| KeyUsers.MissingSectorIsEmpty | src/pages/KeyUsersPage.tsx:61 | a missing sector name is searched as "" |
| Text.Trim | src/components/ReviewCancellationModal.tsx:30 | `trim` returns the piece of the input left after removing the whitespace before and after it: what it drops is whitespace, at the two ends only, and the result has no whitespace at either end; it is empty exactly for an all-whitespace input |
| Text.Utf16Length | src/components/ChangeRequestsModal.tsx:67 | `length` counts UTF-16 code units: a single character counts one up to U+FFFF and two above; the count lies between the character count and twice it, equals the character count when no character is above U+FFFF, and is 0 only for "" |
| Text.Utf16LengthAppend | src/components/ChangeRequestsModal.tsx:67 | the code units of a concatenation are the sum of the parts' code units, so with the one-character case every string's `length` is fixed |
| Text.ToUpper | src/components/Navbar.tsx:45 | the result has no lower-case letter |
| Text.ContainsAt | src/pages/KeyUsersPage.tsx:59-61 | `includes` holds exactly when the needle occurs at some position |
| Text.IntToString | src/components/SectorSelect.tsx:44-45 | `String(n)`: decimal digits, a '-' before a negative number, no leading zero except in "0" itself, and `Number` reads it back as `n` for every integer |
| Text.IntToStringInjective | src/pages/PrioritizationPage.tsx:37 | distinct integers have distinct decimal strings |
| Navbar.Split | src/components/Navbar.tsx:42 | `split(' ')` yields at least one piece, none containing a space |
| Navbar.JoinSplit | src/components/Navbar.tsx:42 | joining the pieces with single spaces gives back the name |
| Navbar.HeadsOfSplit | src/components/Navbar.tsx:42-44 | the first characters of the pieces are exactly the characters that start a word; empty pieces contribute nothing |
| Navbar.Initials | src/components/Navbar.tsx:40-47 | at most two characters, no lower-case letter, and exactly the upper-cased first two word starts |
| Navbar.SingleWord | src/components/Navbar.tsx:43-44 | a name without spaces yields its first letter, upper-cased |
| InitiativeDetails.InitialForm | src/components/InitiativeDetailsModal.tsx:51-59 | missing or empty fields become "", and a missing or empty sector becomes "rh" |
| InitiativeDetails.SyncForm | src/components/InitiativeDetailsModal.tsx:49-59 | a present initiative refills the form; a null one leaves it |
| InitiativeDetails.EditableStatusesAre | src/components/InitiativeDetailsModal.tsx:110-112 | editable exactly for a present initiative whose status is "Submetida" or "Devolvida" |
| InitiativeDetails.HandleChange | src/components/InitiativeDetailsModal.tsx:114-117 | a no-op when not editable; otherwise only the named field changes |
| InitiativeDetails.ChangesCommute | src/components/InitiativeDetailsModal.tsx:114-117 | edits of two different fields commute |
| InitiativeDetails.LoadThread | src/components/InitiativeDetailsModal.tsx:61-85 | a history or comment fetch shows the response's data, or nothing when absent; a thrown error keeps what was shown |
| InitiativeDetails.HandleSubmit | src/components/InitiativeDetailsModal.tsx:119-139 | no initiative sends nothing; otherwise the whole form goes to the initiative's id and only success closes the dialog |
| InitiativeDetails.HandleSendComment | src/components/InitiativeDetailsModal.tsx:94-108 | no initiative or a blank comment does nothing; a post that goes through clears the input; only a successful refetch replaces the thread |
| InitiativeDetails.SendEnabledIffPosts | src/components/InitiativeDetailsModal.tsx:407 | with an initiative open and nothing sending, the send button is enabled exactly when pressing it posts the comment |
| Filters.KeepNonEmpty | src/pages/PrioritizationPage.tsx:26-29 | an entry is kept exactly when its value is non-empty, with the value unchanged, and nothing else is added |
| Filters.ActiveFilters | src/pages/InitiativesPage.tsx:34-37 | the cleaned record holds exactly the filters with non-empty values, under their query names, values unchanged |
| Filters.NoQueryIffNoFilters | src/pages/InitiativesPage.tsx:34-37 | the cleaned record is empty exactly when every filter is empty |
| PrioritizationPage.ToItem | src/pages/PrioritizationPage.tsx:36-43 | the row id reads back as the API id; priority defaults to "Baixa" and deadline to "-" when missing or empty; the other fields are copied |
| PrioritizationPage.ToItems | src/pages/PrioritizationPage.tsx:36-43 | one row per initiative, same length and order |
| PrioritizationPage.RowIdsDistinct | src/pages/PrioritizationPage.tsx:37 | distinct API ids give distinct row ids |
| PrioritizationPage.RowIdsFaithful | src/pages/PrioritizationPage.tsx:37 | two rows share an id exactly when their initiatives do |
| PrioritizationPage.FetchDone | src/pages/PrioritizationPage.tsx:34-52 | an array becomes the mapped rows, in the same order, whose ids read back as the API ids; a non-array empties the list; a thrown error keeps it |
| PrioritizationPage.FirstQueryEmpty | src/pages/PrioritizationPage.tsx:13-19 | the filters start empty, so the first request (whose query is the cleaned filters) carries no parameters |
| PrioritizationPage.OnDragEnd | src/pages/PrioritizationPage.tsx:108 | a completed drop sets the rows to the list's reordering, a permutation of them with the dragged row at the index the target row had; an ignored drop changes nothing |
| PrioritizationPage.DropKeepsDistinctIds | src/pages/PrioritizationPage.tsx:108 | row ids stay distinct across drops |
| InitiativesPage.FetchDone | src/pages/InitiativesPage.tsx:39-45 | an array is taken as the list, a non-array empties it, a thrown error keeps it; no dialog changes |
| InitiativesPage.FirstQueryEmpty | src/pages/InitiativesPage.tsx:18-24 | the filters start empty, so the first request (whose query is the cleaned filters) carries no parameters |
| InitiativesPage.OpenNewInitiative | src/pages/InitiativesPage.tsx:77 | opens the create dialog and nothing else |
| InitiativesPage.SelectInitiative | src/pages/InitiativesPage.tsx:117-120 | a card click selects its initiative and opens the details |
| InitiativesPage.HandleSuccess | src/pages/InitiativesPage.tsx:56-60 | closes the create and details dialogs and refetches; the selection and review state are left alone |
| InitiativesPage.HandleOpenReview | src/pages/InitiativesPage.tsx:62-65 | the handler, if called, stores the request id and the decision and opens the review dialog (no component calls it) |
| InitiativesPage.ReviewProps | src/pages/InitiativesPage.tsx:146-147 | with no pending review the dialog gets a null request id and `approved` false; otherwise the stored ones |
| InitiativesPage.AfterReview | src/pages/InitiativesPage.tsx:143-152 | the review dialog's `onSuccess` refetches and closes the details; its close request closes the review dialog |
| InitiativesPage.NoActionNoCall | src/pages/InitiativesPage.tsx:146-147 | with no pending review, submitting the review dialog sends nothing |
| InitiativesPage.ReviewFlow | src/pages/InitiativesPage.tsx:62-65 | were `handleOpenReview` called on a request (no component in the code calls it), the review would send exactly that request and decision when the id is non-zero and the reason non-blank, and success would close the review and details dialogs and refetch |
| SectorSelect.Encode | src/components/SectorSelect.tsx:44 | null encodes as "no-sector"; an id encodes as a string that reads back as the id and is never "no-sector" |
| SectorSelect.Decode | src/components/SectorSelect.tsx:45 | "no-sector", and only it, decodes to null; a digit string decodes to its number |
| SectorSelect.DecodeEncode | src/components/SectorSelect.tsx:44-45 | decoding the encoding gives back null or the same id, for every integer id including 0 |
| SectorSelect.SectorValues | src/components/SectorSelect.tsx:53-56 | one entry per sector, in the order loaded, each the encoding of that sector's id |
| SectorSelect.Options | src/components/SectorSelect.tsx:52-56 | "no-sector" first, then exactly the sectors' entries, one per sector in the order loaded |
| SectorSelect.PickOption | src/components/SectorSelect.tsx:45-54 | picking an entry hands `onChange` null for the first and that sector's id for the others |
| SectorSelect.OptionsDistinct | src/components/SectorSelect.tsx:52-56 | sectors with distinct ids give distinct entries |

## Left out

- Network and transport: the service modules, the axios client and its 401 interceptor. Every API result is an input value: a response with or without array data, a response with a `success` flag and a message, or a thrown error with an optional `error` or `message` field.
- Seqs.Move: `arrayMove` comes from dnd-kit, whose source is not part of this model. It is specified by the usual remove-at-`from`, insert-at-`to` definition. This is an assumption.
- PrioritizationList.HandleDragEnd: requires the dragged id and the drop target's id to be row ids. dnd-kit only reports ids registered through the sortable context (src/components/PrioritizationList.tsx:51), and those are exactly the rows' ids. Sensors, collision detection and mouse geometry are out.
- The lock/unlock and admin-bypass prioritisation state machine is not implemented by the code. The "Salvar Priorização" button is not wired to anything.
- Rendering and styling: JSX, the status and priority colour tables, the home carousel, the FAQ, the new-initiative form (not wired to the API), the filter bar (a static mock), the dialog primitive, routing and the build configuration.
- Session handling through localStorage: the protected route and the login page.
- The 300 ms debounce before a list fetch. A fetch is modelled as one query plus its settled outcome.
- Locale date formatting (`toLocaleDateString`, `toLocaleString`).
- Text.Trim: uses ASCII whitespace only: space and the characters 9 to 13. `toLowerCase` and `toUpperCase` change only the ASCII letters A-Z and a-z. Unicode whitespace and case mapping are out.
- Navbar.Initials: `part[0]` and `slice(0, 2)` index UTF-16 code units, so for any word starting with a character above U+FFFF JavaScript takes a lone surrogate. The model takes whole characters. The initials of names whose characters are all within U+0000 to U+FFFF are modelled as written.
- InitiativesPage.HandleOpenReview: the page passes the handler as `onReviewCancellation` to `InitiativeCard` (src/pages/InitiativesPage.tsx:121) and to `InitiativeDetailsModal` (src/pages/InitiativesPage.tsx:140). Neither component declares or reads that prop (src/components/InitiativeCard.tsx:19-23, src/components/InitiativeDetailsModal.tsx:18-25). So the handler is never called, the pending review stays null, and the page's review dialog always gets a null request id and sends nothing (InitiativesPage.NoActionNoCall). InitiativesPage.HandleOpenReview and InitiativesPage.ReviewFlow model the handler and what it would set off, a path the code as written cannot reach.
- Text.IntToString: ids and counts are unbounded integers. JavaScript numbers are doubles: `String` switches to exponent notation from 1e21, and `Number` rounds digit strings beyond 2^53. The round trip of Text.IntToString and Text.IntToStringInjective hold as stated only below those bounds in JavaScript; the model does not reproduce either effect.
- Text.ParseNumber: `Number(s)` is modelled on integer strings only. That means optional surrounding whitespace, an optional sign, and decimal digits, with a blank string giving 0. Fractions, exponents, hexadecimal, "Infinity" and other forms give NaN here. The sector picker only ever decodes strings it encoded itself.
- The history entries and comments are opaque records. The history fetch is modelled only through InitiativeDetails.LoadThread.
- InitiativeDetails.HandleChange: `handleChange` takes a field name as a string. Here it takes one of the seven form fields. Writing an unknown key into the form object is not modelled.
- InitiativeDetails.HandleSubmit: the details dialog disables its save button while a save is in flight (src/components/InitiativeDetailsModal.tsx:430). That double-submit guard is not modelled: the member models one press and its outcome. The history-loading flag only switches a spinner.
- UsersPage.Toggle: the user-type list that `fetchUserTypes` loads (src/pages/Users.tsx:89-98) decides which checkboxes are rendered (src/pages/Users.tsx:578-581). That list is loaded data and is not modelled, so the toggle accepts any id.
- `console.error` logging.
- The JavaScript values `undefined` and `null` are both `None`. The model never tells them apart, and the code does not either.

=== FILE: change_requests.dfy ===
/** The administrator's queue of pending prioritisation change requests
    (components/ChangeRequestsModal.tsx).  Unlike the other reason forms,
    this one demands at least five non-blank characters. */
module ChangeRequests {
  import opened Values
  import opened Text
  import opened Seqs

  /** A pending request as listed: who asked, why, and the order proposed. */
  datatype ChangeRequest = ChangeRequest(
    id: int,
    requestedByName: string,
    reason: string,
    newPriorityOrder: seq<int>)

  /** The request being reviewed, and whether it is an approval. */
  datatype Review = Review(id: int, approved: bool)

  datatype State = State(
    requests: seq<ChangeRequest>,
    loading: bool,
    processing: bool,
    reviewing: Option<Review>,
    reviewReason: string)

  /** The state a freshly mounted modal starts in. */
  const Initial: State := State([], true, false, None, "")

  /** The least number of non-blank characters a review reason needs. */
  const MinReasonLength: nat := 5

  /** The outcome of `getPendingRequests`: the response's `data` field
      (possibly absent), or a thrown error. */
  datatype FetchOutcome = Fetched(data: Option<seq<ChangeRequest>>) | FetchFailed

  /** The open-effect: whenever the modal is opened a fetch starts and any
      half-finished review is discarded.  Closing changes nothing. */
  function OnOpenChange(s: State, open: bool): (r: State)
    ensures open ==> r.reviewing.None? && r.reviewReason == "" && r.loading
    ensures open ==> r.requests == s.requests && r.processing == s.processing
    ensures !open ==> r == s
  {
    if open then s.(reviewing := None, reviewReason := "", loading := true) else s
  }

  /** `fetchRequests` completing: the list becomes the response's data (or
      empty when absent), and a failed fetch leaves the list empty. */
  function FetchDone(s: State, outcome: FetchOutcome): (r: State)
    ensures !r.loading
    ensures outcome.FetchFailed? ==> r.requests == []
    ensures outcome == Fetched(None) ==> r.requests == []
    ensures outcome.Fetched? && outcome.data.Some? ==> r.requests == outcome.data.value
    ensures r.reviewing == s.reviewing && r.reviewReason == s.reviewReason && r.processing == s.processing
  {
    match outcome
    case Fetched(data) => s.(requests := OrEmpty(data), loading := false)
    case FetchFailed => s.(requests := [], loading := false)
  }

  /** `handleOpenReview`: remember which request and which verdict, and
      start from an empty reason. */
  function HandleOpenReview(s: State, id: int, approved: bool): (r: State)
    ensures r.reviewing == Some(Review(id, approved))
    ensures r.reviewReason == ""
    ensures r.requests == s.requests && r.processing == s.processing && r.loading == s.loading
  {
    s.(reviewing := Some(Review(id, approved)), reviewReason := "")
  }

  /** The "Voltar" button: back to the list without reviewing. */
  function HandleBack(s: State): (r: State)
    ensures r.reviewing.None?
    ensures r.requests == s.requests && r.reviewReason == s.reviewReason
  {
    s.(reviewing := None)
  }

  /** The reason is long enough once trimmed: `trim().length`, which counts
      UTF-16 code units, is at least five. */
  predicate ReasonLongEnough(reason: string) {
    Utf16Length(Trim(reason)) >= MinReasonLength
  }

  /** The confirm button is enabled: not processing and a long enough
      reason. */
  predicate ConfirmEnabled(s: State) {
    !(s.processing || Utf16Length(Trim(s.reviewReason)) < MinReasonLength)
  }

  /** The "minimum 5 characters" hint is shown. */
  predicate ShowMinLengthHint(s: State) {
    Utf16Length(Trim(s.reviewReason)) > 0 && Utf16Length(Trim(s.reviewReason)) < MinReasonLength
  }

  /** The request `reviewRequest` sends. */
  datatype ReviewCall = ReviewCall(requestId: int, approved: bool, reason: string)

  /** The outcome of `reviewRequest`. */
  datatype ReviewOutcome = ReviewSucceeded | ReviewFailed

  /** The state after `handleConfirmReview`, the call it made (if any) and
      whether it notified the parent through `onRequestProcessed`. */
  datatype Confirmed = Confirmed(state: State, call: Option<ReviewCall>, processed: bool)

  /** Removes the reviewed request from the list. */
  function WithoutId(requests: seq<ChangeRequest>, id: int): (r: seq<ChangeRequest>)
    ensures forall q :: q in r <==> q in requests && q.id != id
    ensures forall q :: multiset(r)[q] == if q.id != id then multiset(requests)[q] else 0
    ensures IsSubsequence(r, requests)
  {
    FilterIsSubsequence(requests, (q: ChangeRequest) => q.id != id);
    Filter(requests, (q: ChangeRequest) => q.id != id)
  }

  /** `handleConfirmReview`. */
  function HandleConfirmReview(s: State, outcome: ReviewOutcome): (r: Confirmed)
    // with nothing under review, or a short reason, nothing happens
    ensures s.reviewing.None? ==> r == Confirmed(s, None, false)
    ensures !ReasonLongEnough(s.reviewReason) ==> r == Confirmed(s, None, false)
    // otherwise the review is sent with the reason as typed
    ensures s.reviewing.Some? && ReasonLongEnough(s.reviewReason) ==>
      r.call == Some(ReviewCall(s.reviewing.value.id, s.reviewing.value.approved, s.reviewReason))
      && !r.state.processing
      && r.state.reviewReason == s.reviewReason
      && r.state.loading == s.loading
    // success: exactly that request leaves the list, order kept, review closed
    ensures s.reviewing.Some? && ReasonLongEnough(s.reviewReason) && outcome.ReviewSucceeded? ==>
      && (forall q :: q in r.state.requests <==> q in s.requests && q.id != s.reviewing.value.id)
      && (forall q :: multiset(r.state.requests)[q] == if q.id != s.reviewing.value.id then multiset(s.requests)[q] else 0)
      && IsSubsequence(r.state.requests, s.requests)
      && r.state.reviewing.None?
      && r.processed
    // failure: list and review unchanged
    ensures s.reviewing.Some? && ReasonLongEnough(s.reviewReason) && outcome.ReviewFailed? ==>
      r.state == s.(processing := false) && !r.processed
  {
    match s.reviewing
    case None => Confirmed(s, None, false)
    case Some(review) =>
      if Utf16Length(Trim(s.reviewReason)) < MinReasonLength then Confirmed(s, None, false)
      else
        var call := Some(ReviewCall(review.id, review.approved, s.reviewReason));
        match outcome
        case ReviewSucceeded =>
          Confirmed(s.(requests := WithoutId(s.requests, review.id), reviewing := None, processing := false), call, true)
        case ReviewFailed =>
          Confirmed(s.(processing := false), call, false)
  }

  /** The confirm button and the handler agree: when a review is open and
      nothing is processing, the button is enabled exactly when confirming
      would send the review. */
  lemma ConfirmEnabledIffSends(s: State, outcome: ReviewOutcome)
    requires s.reviewing.Some? && !s.processing
    ensures ConfirmEnabled(s) <==> HandleConfirmReview(s, outcome).call.Some?
  {
  }

  /** For a non-blank reason, the hint and an enabled confirm button
      exclude each other, and (when not processing) one of them shows. */
  lemma HintXorEnabled(s: State)
    requires !IsBlank(s.reviewReason)
    ensures ShowMinLengthHint(s) ==> !ConfirmEnabled(s)
    ensures !s.processing ==> (ShowMinLengthHint(s) <==> !ConfirmEnabled(s))
  {
  }
}

=== FILE: filters.dfy ===
/** The query filters of the initiative lists and how a page cleans them
    before asking for data (pages/PrioritizationPage.tsx,
    pages/InitiativesPage.tsx — both do it the same way). */
module Filters {

  /** `FilterState`; `kind` is the `type` filter. */
  datatype FilterState = FilterState(search: string, status: string, kind: string, sector: string, priority: string)

  /** The filters a page starts with: all empty. */
  const NoFilters: FilterState := FilterState("", "", "", "", "")

  /** The query parameter names, in `Object.entries` order. */
  const Keys: seq<string> := ["search", "status", "type", "sector", "priority"]

  /** The value held under a query parameter name; "" for any other name. */
  function Lookup(f: FilterState, key: string): string {
    if key == "search" then f.search
    else if key == "status" then f.status
    else if key == "type" then f.kind
    else if key == "sector" then f.sector
    else if key == "priority" then f.priority
    else ""
  }

  /** `Object.entries(filters)`. */
  function Entries(f: FilterState): seq<(string, string)> {
    seq(|Keys|, i requires 0 <= i < |Keys| => (Keys[i], Lookup(f, Keys[i])))
  }

  predicate DistinctKeys(entries: seq<(string, string)>) {
    forall i, j :: 0 <= i < j < |entries| ==> entries[i].0 != entries[j].0
  }

  /** The `forEach` that copies each entry with a truthy (non-empty) value
      into a fresh record. */
  function KeepNonEmpty(entries: seq<(string, string)>): (m: map<string, string>)
    requires DistinctKeys(entries)
    ensures forall i :: 0 <= i < |entries| ==> (entries[i].0 in m <==> entries[i].1 != "")
    ensures forall i :: 0 <= i < |entries| && entries[i].0 in m ==> m[entries[i].0] == entries[i].1
    ensures forall k :: k in m ==> exists i :: 0 <= i < |entries| && entries[i].0 == k
  {
    if |entries| == 0 then map[]
    else
      var init := entries[..|entries| - 1];
      var last := entries[|entries| - 1];
      var m := KeepNonEmpty(init);
      assert forall i :: 0 <= i < |init| ==> init[i] == entries[i];
      assert last.0 !in m;
      if last.1 != "" then m[last.0 := last.1] else m
  }

  /** `activeFilters`: exactly the filters with a non-empty value, under
      their query names, with their values unchanged. */
  function ActiveFilters(f: FilterState): (m: map<string, string>)
    ensures forall k :: k in m ==> k in Keys
    ensures forall k :: k in Keys ==> (k in m <==> Lookup(f, k) != "")
    ensures forall k :: k in m ==> m[k] == Lookup(f, k)
  {
    var e := Entries(f);
    assert forall i :: 0 <= i < |Keys| ==> e[i] == (Keys[i], Lookup(f, Keys[i]));
    KeepNonEmpty(e)
  }

  /** The cleaned record is empty, so no query string is sent, exactly when
      every filter is empty. */
  lemma NoQueryIffNoFilters(f: FilterState)
    ensures ActiveFilters(f) == map[] <==> f == NoFilters
  {
    var m := ActiveFilters(f);
    if f == NoFilters {
      forall k | k in m
        ensures false
      {
      }
    } else {
      assert Lookup(f, Keys[0]) != "" || Lookup(f, Keys[1]) != "" || Lookup(f, Keys[2]) != ""
          || Lookup(f, Keys[3]) != "" || Lookup(f, Keys[4]) != "";
      assert exists k :: k in Keys && k in m;
    }
  }
}

=== FILE: initiative_details.dfy ===
/** The initiative details dialog (components/InitiativeDetailsModal.tsx):
    the edit form, its editability gate, saving, and sending a comment. */
module InitiativeDetails {
  import opened Values
  import opened Text

  /** An initiative as the dialog receives it; the text fields may be
      missing.  `kind` is the initiative's `type`. */
  datatype Initiative = Initiative(
    id: int,
    title: Option<string>,
    description: Option<string>,
    benefits: Option<string>,
    kind: Option<string>,
    priority: Option<string>,
    deadline: Option<string>,
    sector: Option<string>,
    status: string)

  datatype Form = Form(
    title: string,
    description: string,
    benefits: string,
    kind: string,
    priority: string,
    deadline: string,
    sector: string)

  /** The form before any initiative has been loaded. */
  const EmptyForm: Form := Form("", "", "", "", "", "", "")

  /** The sector a form falls back to. */
  const DefaultSector: string := "rh"

  /** The form fields `handleChange` is called with. */
  datatype Field = Title | Description | Benefits | Kind | Priority | Deadline | Sector

  function Get(f: Form, field: Field): string {
    match field
    case Title => f.title
    case Description => f.description
    case Benefits => f.benefits
    case Kind => f.kind
    case Priority => f.priority
    case Deadline => f.deadline
    case Sector => f.sector
  }

  /** The form the dialog fills in from an initiative: missing or empty text
      becomes "", and a missing or empty sector becomes "rh". */
  function InitialForm(i: Initiative): (f: Form)
    ensures forall field :: field != Sector ==> (Get(f, field) == "" <==> Raw(i, field).None? || Raw(i, field) == Some(""))
    ensures forall field :: field != Sector && Raw(i, field).Some? ==> Get(f, field) == Raw(i, field).value
    ensures f.sector == OrElse(i.sector, DefaultSector) && f.sector != ""
  {
    Form(
      OrElse(i.title, ""),
      OrElse(i.description, ""),
      OrElse(i.benefits, ""),
      OrElse(i.kind, ""),
      OrElse(i.priority, ""),
      OrElse(i.deadline, ""),
      OrElse(i.sector, DefaultSector))
  }

  /** The initiative's own value for a form field. */
  function Raw(i: Initiative, field: Field): Option<string> {
    match field
    case Title => i.title
    case Description => i.description
    case Benefits => i.benefits
    case Kind => i.kind
    case Priority => i.priority
    case Deadline => i.deadline
    case Sector => i.sector
  }

  /** The effect run when the `initiative` prop changes: a present
      initiative refills the form, a null one leaves it. */
  function SyncForm(f: Form, initiative: Option<Initiative>): (r: Form)
    ensures initiative.None? ==> r == f
    ensures initiative.Some? ==> r == InitialForm(initiative.value)
  {
    match initiative
    case Some(i) => InitialForm(i)
    case None => f
  }

  /** The statuses in which the submitter may still edit. */
  const EditableStatuses: seq<string> := ["Submetida", "Devolvida"]

  /** `isEditable`. */
  predicate IsEditable(initiative: Option<Initiative>) {
    initiative.Some? && initiative.value.status in EditableStatuses
  }

  /** `handleChange`: outside the editable window nothing changes; inside it,
      exactly the named field takes the new value. */
  function HandleChange(f: Form, initiative: Option<Initiative>, field: Field, value: string): (r: Form)
    ensures !IsEditable(initiative) ==> r == f
    ensures IsEditable(initiative) ==> Get(r, field) == value
    ensures forall other :: other != field ==> Get(r, other) == Get(f, other)
  {
    if !IsEditable(initiative) then f
    else
      match field
      case Title => f.(title := value)
      case Description => f.(description := value)
      case Benefits => f.(benefits := value)
      case Kind => f.(kind := value)
      case Priority => f.(priority := value)
      case Deadline => f.(deadline := value)
      case Sector => f.(sector := value)
  }

  /** The form is editable exactly for a present initiative that is
      submitted or returned. */
  lemma EditableStatusesAre(initiative: Option<Initiative>)
    ensures IsEditable(initiative) <==>
      initiative.Some? && (initiative.value.status == "Submetida" || initiative.value.status == "Devolvida")
  {
  }

  /** Two edits of different fields commute. */
  lemma ChangesCommute(f: Form, initiative: Option<Initiative>, a: Field, va: string, b: Field, vb: string)
    requires a != b
    ensures HandleChange(HandleChange(f, initiative, a, va), initiative, b, vb)
         == HandleChange(HandleChange(f, initiative, b, vb), initiative, a, va)
  {
    var x := HandleChange(HandleChange(f, initiative, a, va), initiative, b, vb);
    var y := HandleChange(HandleChange(f, initiative, b, vb), initiative, a, va);
    assert forall field :: Get(x, field) == Get(y, field);
    assert x.title == Get(x, Title) && y.title == Get(y, Title);
    assert x.description == Get(x, Description) && y.description == Get(y, Description);
    assert x.benefits == Get(x, Benefits) && y.benefits == Get(y, Benefits);
    assert x.kind == Get(x, Kind) && y.kind == Get(y, Kind);
    assert x.priority == Get(x, Priority) && y.priority == Get(y, Priority);
    assert x.deadline == Get(x, Deadline) && y.deadline == Get(y, Deadline);
    assert x.sector == Get(x, Sector) && y.sector == Get(y, Sector);
  }

  // ---------------------------------------------------------------------
  // Loading the history and comment threads

  /** The outcome of `getHistory` or `getComments`: the response's `data`
      field (maybe absent), or a thrown error. */
  datatype ThreadFetch<T> = Loaded(data: Option<seq<T>>) | LoadFailed

  /** A thread fetch completing: a response replaces the thread with its
      data, or with nothing when the data is absent; a thrown error keeps
      what was shown. */
  function LoadThread<T>(current: seq<T>, outcome: ThreadFetch<T>): (r: seq<T>)
    ensures outcome.LoadFailed? ==> r == current
    ensures outcome.Loaded? && outcome.data.Some? ==> r == outcome.data.value
    ensures outcome == Loaded(None) ==> r == []
  {
    match outcome
    case Loaded(data) => OrEmpty(data)
    case LoadFailed => current
  }

  // ---------------------------------------------------------------------
  // Saving

  datatype UpdateCall = UpdateCall(initiativeId: int, form: Form)

  /** The call `handleSubmit` makes, and whether it then fires `onSuccess`
      and closes. */
  datatype Saved = Saved(call: Option<UpdateCall>, closed: bool)

  /** `handleSubmit`: sends the whole form for a present initiative; only a
      successful update closes the dialog. */
  function HandleSubmit(initiative: Option<Initiative>, f: Form, succeeded: bool): (r: Saved)
    ensures initiative.None? ==> r == Saved(None, false)
    ensures initiative.Some? ==> r.call == Some(UpdateCall(initiative.value.id, f))
    ensures r.closed <==> initiative.Some? && succeeded
  {
    match initiative
    case None => Saved(None, false)
    case Some(i) => Saved(Some(UpdateCall(i.id, f)), succeeded)
  }

  // ---------------------------------------------------------------------
  // Comments

  datatype Comment = Comment(id: int, userName: string, content: string)

  datatype CommentState = CommentState(newComment: string, sending: bool, comments: seq<Comment>)

  /** The outcome of sending: the post failed; it succeeded but the refetch
      failed; or both succeeded, with the refetched `data` (maybe absent). */
  datatype SendOutcome = PostFailed | RefreshFailed | Refreshed(data: Option<seq<Comment>>)

  datatype CommentCall = CommentCall(initiativeId: int, content: string)

  datatype Sent = Sent(state: CommentState, call: Option<CommentCall>)

  /** The send button is enabled: `!(commentSending || !newComment.trim())`,
      where `!newComment.trim()` is `IsBlank`. */
  predicate SendEnabled(s: CommentState) {
    !(s.sending || IsBlank(s.newComment))
  }

  /** `handleSendComment`. */
  function HandleSendComment(initiative: Option<Initiative>, s: CommentState, outcome: SendOutcome): (r: Sent)
    ensures initiative.None? || IsBlank(s.newComment) ==> r == Sent(s, None)
    ensures initiative.Some? && !IsBlank(s.newComment) ==>
      && r.call == Some(CommentCall(initiative.value.id, s.newComment))
      && !r.state.sending
      // a post that went through clears the input
      && (outcome.PostFailed? <==> r.state.newComment == s.newComment && s.newComment != "")
      && (!outcome.PostFailed? ==> r.state.newComment == "")
      // only a successful refetch replaces the thread
      && (outcome.Refreshed? ==> r.state.comments == OrEmpty(outcome.data))
      && (!outcome.Refreshed? ==> r.state.comments == s.comments)
  {
    match initiative
    case None => Sent(s, None)
    case Some(i) =>
      if IsBlank(s.newComment) then Sent(s, None)
      else
        var call := Some(CommentCall(i.id, s.newComment));
        match outcome
        case PostFailed => Sent(s.(sending := false), call)
        case RefreshFailed => Sent(s.(newComment := "", sending := false), call)
        case Refreshed(data) => Sent(s.(newComment := "", sending := false, comments := OrEmpty(data)), call)
  }

  /** With an initiative open and nothing being sent, the button is enabled
      exactly when pressing it posts the comment. */
  lemma SendEnabledIffPosts(initiative: Option<Initiative>, s: CommentState, outcome: SendOutcome)
    requires initiative.Some? && !s.sending
    ensures SendEnabled(s) <==> HandleSendComment(initiative, s, outcome).call.Some?
  {
  }
}

=== FILE: initiatives_page.dfy ===
/** The initiatives list screen (pages/InitiativesPage.tsx): the fetch under
    the current filters, the dialogs it opens, and how the cancellation
    review dialog is wired to it. */
module InitiativesPage {
  import opened Values
  import opened Filters
  import opened InitiativeDetails
  import ReasonForm
  import ReviewCancellation

  /** The pending review: which cancellation request, approve or reject. */
  datatype ReviewAction = ReviewAction(requestId: int, approved: bool)

  datatype PageState = PageState(
    isModalOpen: bool,
    selected: Option<Initiative>,
    isDetailsOpen: bool,
    initiatives: seq<Initiative>,
    loading: bool,
    filters: FilterState,
    isReviewOpen: bool,
    reviewAction: Option<ReviewAction>)

  /** The page as it mounts: nothing open or selected, loading, no
      filters. */
  const Initial: PageState := PageState(false, None, false, [], true, NoFilters, false, None)

  /** A page change, and whether it runs `fetchInitiatives` again. */
  datatype Step = Step(page: PageState, refetch: bool)

  /** Which dialogs are open and what they show; everything but the list. */
  predicate SameDialogs(a: PageState, b: PageState) {
    a.isModalOpen == b.isModalOpen && a.selected == b.selected && a.isDetailsOpen == b.isDetailsOpen
    && a.isReviewOpen == b.isReviewOpen && a.reviewAction == b.reviewAction
  }

  // ---------------------------------------------------------------------
  // Fetching

  /** What `getAll` gave back: a body that is or is not an array, or a
      thrown error. */
  datatype FetchOutcome = Returned(data: Payload<Initiative>) | FetchThrew

  /** `fetchInitiatives` after the call: an array is taken as the list,
      anything else empties it, and a thrown error keeps the list it had. */
  function FetchDone(p: PageState, outcome: FetchOutcome): (r: PageState)
    ensures !r.loading && r.filters == p.filters && SameDialogs(r, p)
    ensures outcome == Returned(NotArray) ==> r.initiatives == []
    ensures outcome.Returned? && outcome.data.ArrayOf? ==> r.initiatives == outcome.data.items
    ensures outcome.FetchThrew? ==> r.initiatives == p.initiatives
  {
    match outcome
    case Returned(data) => p.(initiatives := OrEmpty(match data case ArrayOf(items) => Some(items) case NotArray => None), loading := false)
    case FetchThrew => p.(loading := false)
  }

  /** The page's first request carries no query parameters: the query is
      `ActiveFilters` of the current filters, and they start empty. */
  lemma FirstQueryEmpty()
    ensures ActiveFilters(Initial.filters) == map[]
  {
    NoQueryIffNoFilters(Initial.filters);
  }

  // ---------------------------------------------------------------------
  // Dialogs

  /** The "Nova Iniciativa" button. */
  function OpenNewInitiative(p: PageState): (r: PageState)
    ensures r.isModalOpen
    ensures r.selected == p.selected && r.isDetailsOpen == p.isDetailsOpen && r.initiatives == p.initiatives
    ensures r.isReviewOpen == p.isReviewOpen && r.reviewAction == p.reviewAction
  {
    p.(isModalOpen := true)
  }

  /** Clicking a card selects its initiative and opens the details. */
  function SelectInitiative(p: PageState, i: Initiative): (r: PageState)
    ensures r.selected == Some(i) && r.isDetailsOpen
    ensures r.isModalOpen == p.isModalOpen && r.initiatives == p.initiatives
    ensures r.isReviewOpen == p.isReviewOpen && r.reviewAction == p.reviewAction
  {
    p.(selected := Some(i), isDetailsOpen := true)
  }

  /** `handleSuccess`, after creating or saving an initiative: both the
      create and the details dialogs close and the list is fetched again;
      the selection and the review dialog are left alone. */
  function HandleSuccess(p: PageState): (r: Step)
    ensures r.refetch
    ensures !r.page.isModalOpen && !r.page.isDetailsOpen
    ensures r.page.selected == p.selected && r.page.initiatives == p.initiatives
    ensures r.page.isReviewOpen == p.isReviewOpen && r.page.reviewAction == p.reviewAction
  {
    Step(p.(isModalOpen := false, isDetailsOpen := false), true)
  }

  /** `handleOpenReview`: remember the request and the decision, and open
      the review dialog.  The page hands it to the card and the details
      dialog as `onReviewCancellation`, a prop neither of them reads, so in
      the code as written nothing calls it and the pending review stays
      `None`. */
  function HandleOpenReview(p: PageState, requestId: int, approved: bool): (r: PageState)
    ensures r.isReviewOpen && r.reviewAction == Some(ReviewAction(requestId, approved))
    ensures r.isModalOpen == p.isModalOpen && r.selected == p.selected && r.isDetailsOpen == p.isDetailsOpen
    ensures r.initiatives == p.initiatives
  {
    p.(reviewAction := Some(ReviewAction(requestId, approved)), isReviewOpen := true)
  }

  /** The props the review dialog gets: `reviewAction?.requestId ?? null`
      and `reviewAction?.approved ?? false`. */
  function ReviewProps(p: PageState): (r: (Option<int>, bool))
    ensures p.reviewAction.None? ==> r == (None, false)
    ensures p.reviewAction.Some? ==> r.0 == Some(p.reviewAction.value.requestId) && r.1 == p.reviewAction.value.approved
  {
    match p.reviewAction
    case None => (None, false)
    case Some(action) => (Some(action.requestId), action.approved)
  }

  /** The page's side of the review dialog's callbacks: `onSuccess`
      refetches and closes the details, and the dialog's own close request
      closes the review dialog. */
  function AfterReview(p: PageState, effects: ReasonForm.Effects): (r: Step)
    ensures r.refetch <==> effects.onSuccess
    ensures r.page.isDetailsOpen <==> p.isDetailsOpen && !effects.onSuccess
    ensures r.page.isReviewOpen <==> p.isReviewOpen && !effects.close
    ensures r.page.isModalOpen == p.isModalOpen && r.page.selected == p.selected
    ensures r.page.initiatives == p.initiatives && r.page.reviewAction == p.reviewAction
  {
    var afterSuccess := if effects.onSuccess then p.(isDetailsOpen := false) else p;
    var afterClose := if effects.close then afterSuccess.(isReviewOpen := false) else afterSuccess;
    Step(afterClose, effects.onSuccess)
  }

  /** With no review chosen the dialog gets no request id, so submitting it
      sends nothing.  Since `HandleOpenReview` is never called, this is what
      the page's review dialog always does. */
  lemma NoActionNoCall(p: PageState, s: ReasonForm.FormState, outcome: ReasonForm.ServiceOutcome)
    requires p.reviewAction.None?
    ensures ReviewCancellation.HandleSubmit(ReviewProps(p).0, ReviewProps(p).1, s, outcome).call.None?
  {
  }

  /** The path a caller of `HandleOpenReview` would open; no component in
      the code takes it.  Opening a review and submitting it with a reason
      sends exactly the request and decision that were chosen (a request id
      of 0 is falsy and sends nothing); a successful review closes the
      review and details dialogs and fetches the list again. */
  lemma ReviewFlow(p: PageState, requestId: int, approved: bool, s: ReasonForm.FormState, outcome: ReasonForm.ServiceOutcome)
    ensures
      var q := HandleOpenReview(p, requestId, approved);
      var sub := ReviewCancellation.HandleSubmit(ReviewProps(q).0, ReviewProps(q).1, s, outcome);
      && (sub.call.Some? <==> requestId != 0 && !ReasonForm.ReasonBlank(s.reason))
      && (sub.call.Some? ==> sub.call.value == ReviewCancellation.Call(requestId, approved, s.reason))
      && (sub.call.Some? && outcome.Succeeded? ==>
            var after := AfterReview(q, sub.effects);
            after.refetch && !after.page.isReviewOpen && !after.page.isDetailsOpen)
  {
  }
}

=== FILE: key_users.dfy ===
/** The read-only user directory with its search box
    (pages/KeyUsersPage.tsx). */
module KeyUsers {
  import opened Values
  import opened Text
  import opened Seqs

  /** A directory row; `sectorName` may be absent. */
  datatype UserData = UserData(id: int, email: string, name: string, sectorName: Option<string>)

  datatype State = State(users: seq<UserData>, loading: bool, searchTerm: string)

  /** The response body of `GET /private/users`: its `success` flag and its
      `data` field, which may or may not be an array. */
  datatype Response = Response(success: bool, data: Payload<UserData>)

  datatype FetchOutcome = Responded(response: Response) | FetchThrew

  /** `fetchUsers`: a successful array response replaces the list, any other
      response empties it, and a thrown error leaves it as it was. */
  function FetchUsers(s: State, outcome: FetchOutcome): (r: State)
    ensures !r.loading && r.searchTerm == s.searchTerm
    ensures outcome.Responded? && outcome.response.success && outcome.response.data.ArrayOf? ==>
      r.users == outcome.response.data.items
    ensures outcome.Responded? && (!outcome.response.success || outcome.response.data.NotArray?) ==>
      r.users == []
    ensures outcome.FetchThrew? ==> r.users == s.users
  {
    match outcome
    case Responded(response) =>
      if response.success && response.data.ArrayOf? then s.(users := response.data.items, loading := false)
      else s.(users := [], loading := false)
    case FetchThrew => s.(loading := false)
  }

  /** The search test for one user: the lower-cased name, email or sector
      name (missing counts as "") includes the lower-cased term. */
  predicate Matches(term: string, u: UserData) {
    var t := ToLower(term);
    Contains(ToLower(u.name), t)
      || Contains(ToLower(u.email), t)
      || Contains(ToLower(OrElse(u.sectorName, "")), t)
  }

  function MatchesTerm(term: string): UserData -> bool {
    u => Matches(term, u)
  }

  /** `filteredUsers`. */
  function FilteredUsers(users: seq<UserData>, term: string): (r: seq<UserData>)
    ensures forall u :: u in r <==>
      u in users
      && (Contains(ToLower(u.name), ToLower(term))
          || Contains(ToLower(u.email), ToLower(term))
          || Contains(ToLower(OrElse(u.sectorName, "")), ToLower(term)))
    ensures forall u :: multiset(r)[u] == if Matches(term, u) then multiset(users)[u] else 0
    ensures IsSubsequence(r, users)
    ensures term == "" ==> r == users
  {
    FilterIsSubsequence(users, MatchesTerm(term));
    if term == "" then
      assert forall i :: 0 <= i < |users| ==> Matches(term, users[i]) by {
        forall i | 0 <= i < |users| {
          ContainsEmpty(ToLower(users[i].name));
        }
      }
      FilterKeepsAll(users, MatchesTerm(term));
      Filter(users, MatchesTerm(term))
    else
      Filter(users, MatchesTerm(term))
  }

  /** The search ignores the letter case of the term. */
  lemma SearchIgnoresCase(users: seq<UserData>, a: string, b: string)
    requires SameIgnoringCase(a, b)
    ensures FilteredUsers(users, a) == FilteredUsers(users, b)
  {
    assert ToLower(a) == ToLower(b);
    FilterCongruent(users, MatchesTerm(a), MatchesTerm(b));
  }

  /** In particular, the upper-cased term finds the same users. */
  lemma SearchUpperCase(users: seq<UserData>, term: string)
    ensures FilteredUsers(users, ToUpper(term)) == FilteredUsers(users, term)
  {
    assert SameIgnoringCase(ToUpper(term), term);
    SearchIgnoresCase(users, ToUpper(term), term);
  }

  /** A user without a sector name is searched as if it were "". */
  lemma MissingSectorIsEmpty(u: UserData, term: string)
    requires u.sectorName.None?
    ensures Matches(term, u) == Matches(term, u.(sectorName := Some("")))
  {
  }
}

=== FILE: navbar.dfy ===
/** The avatar initials in the navigation bar (components/Navbar.tsx). */
module Navbar {
  import opened Text

  /** The index of the first space in `s`. */
  function FirstSpace(s: string): (i: nat)
    requires ' ' in s
    ensures i < |s| && s[i] == ' ' && ' ' !in s[..i]
  {
    if s[0] == ' ' then 0
    else
      assert ' ' in s[1..];
      var k := FirstSpace(s[1..]);
      assert s[..k + 1] == [s[0]] + s[1..][..k];
      k + 1
  }

  /** `s.split(' ')`: the pieces between single spaces, so consecutive,
      leading or trailing spaces give empty pieces. */
  function Split(s: string): (parts: seq<string>)
    ensures |parts| >= 1
    ensures forall i :: 0 <= i < |parts| ==> ' ' !in parts[i]
    decreases |s|
  {
    if ' ' !in s then [s]
    else
      var i := FirstSpace(s);
      [s[..i]] + Split(s[i + 1..])
  }

  /** `parts.join(' ')`. */
  function Join(parts: seq<string>): string
    requires |parts| >= 1
  {
    if |parts| == 1 then parts[0] else parts[0] + " " + Join(parts[1..])
  }

  /** Splitting on spaces loses nothing: joining the pieces back with single
      spaces gives the original string. */
  lemma {:induction false} JoinSplit(s: string)
    ensures Join(Split(s)) == s
    decreases |s|
  {
    if ' ' in s {
      var i := FirstSpace(s);
      var rest := Split(s[i + 1..]);
      JoinSplit(s[i + 1..]);
      assert Split(s) == [s[..i]] + rest;
      assert ([s[..i]] + rest)[1..] == rest;
      assert s == s[..i] + " " + s[i + 1..];
    }
  }

  /** `parts.map(part => part[0]).join('')`: the first character of each
      piece; an empty piece yields `undefined`, which `join` prints as "". */
  function Heads(parts: seq<string>): string {
    if |parts| == 0 then ""
    else (if |parts[0]| > 0 then [parts[0][0]] else "") + Heads(parts[1..])
  }

  /** The characters that begin a word, read straight off the string: every
      non-space character at the start or right after a space. */
  function WordStarts(s: string, atStart: bool): string
    decreases |s|
  {
    if |s| == 0 then ""
    else (if atStart && s[0] != ' ' then [s[0]] else "") + WordStarts(s[1..], s[0] == ' ')
  }

  lemma {:induction false} NoSpaceNoStarts(s: string)
    requires ' ' !in s
    ensures WordStarts(s, false) == ""
    decreases |s|
  {
    if |s| > 0 {
      assert ' ' !in s[1..];
      NoSpaceNoStarts(s[1..]);
    }
  }

  /** Reading up to and past the first space contributes the word's first
      character, if the word is not empty and starts a word. */
  lemma {:induction false} SkipWord(s: string, i: nat, atStart: bool)
    requires i < |s| && s[i] == ' ' && ' ' !in s[..i]
    ensures WordStarts(s, atStart) == (if atStart && i > 0 then [s[0]] else "") + WordStarts(s[i + 1..], true)
    decreases i
  {
    if i > 0 {
      assert s[0] in s[..i];
      assert s[1..][..i - 1] == s[1..i];
      assert forall c :: c in s[1..i] ==> c in s[..i];
      SkipWord(s[1..], i - 1, false);
      assert s[1..][i..] == s[i + 1..];
    }
  }

  /** The split-map-join pipeline computes exactly the word starts. */
  lemma {:induction false} HeadsOfSplit(s: string)
    ensures Heads(Split(s)) == WordStarts(s, true)
    decreases |s|
  {
    if ' ' !in s {
      if |s| > 0 {
        assert ' ' !in s[1..];
        NoSpaceNoStarts(s[1..]);
      }
    } else {
      var i := FirstSpace(s);
      var rest := Split(s[i + 1..]);
      HeadsOfSplit(s[i + 1..]);
      SkipWord(s, i, true);
      assert Split(s) == [s[..i]] + rest;
      assert ([s[..i]] + rest)[1..] == rest;
    }
  }

  /** `getInitials`: the first letters of the space-separated words, upper
      case, at most two. */
  function Initials(name: string): (r: string)
    ensures |r| <= 2
    ensures forall i :: 0 <= i < |r| ==> !IsLower(r[i])
    ensures |r| == if |WordStarts(name, true)| < 2 then |WordStarts(name, true)| else 2
    ensures r == ToUpper(WordStarts(name, true))[..|r|]
  {
    HeadsOfSplit(name);
    var joined := ToUpper(Heads(Split(name)));
    if |joined| <= 2 then joined else joined[..2]
  }

  /** A name with no spaces yields a single letter. */
  lemma SingleWord(name: string)
    requires |name| > 0 && ' ' !in name
    ensures Initials(name) == [UpperChar(name[0])]
  {
    assert ' ' !in name[1..];
    NoSpaceNoStarts(name[1..]);
  }
}

=== FILE: prioritization_list.dfy ===
/** The drag-reorderable backlog list: the drop handler and the rank column
    (components/PrioritizationList.tsx, components/PrioritizationItem.tsx). */
module PrioritizationList {
  import opened Values
  import opened Seqs

  /** One row of the list (`PrioritizationItemData`).  `kind` is the
      initiative's `type`. */
  datatype ItemData = ItemData(
    id: string,
    title: string,
    kind: string,
    priority: string,
    status: string,
    deadline: Option<string>)

  /** What dnd-kit reports when a drag ends: the dragged row's id and the id
      of the row it was dropped on, if any. */
  datatype DragEndEvent = DragEndEvent(active: string, over: Option<string>)

  /** Whether `onReorder` is called, and with which list. */
  datatype DragOutcome = Unchanged | Reordered(items: seq<ItemData>)

  predicate HasId(items: seq<ItemData>, id: string) {
    exists j :: 0 <= j < |items| && items[j].id == id
  }

  /** `items.findIndex(item => item.id === id)`: the first index that holds
      `id`, or -1 when none does. */
  function FindIndex(items: seq<ItemData>, id: string): (i: int)
    ensures -1 <= i < |items|
    ensures i >= 0 ==> items[i].id == id && forall j :: 0 <= j < i ==> items[j].id != id
    ensures i == -1 <==> !HasId(items, id)
  {
    if |items| == 0 then -1
    else if items[0].id == id then 0
    else
      var k := FindIndex(items[1..], id);
      assert forall j :: 1 <= j < |items| ==> items[1..][j - 1] == items[j];
      if k < 0 then -1 else k + 1
  }

  /** `handleDragEnd`.  Dropping outside any row, or onto the dragged row
      itself, leaves the list alone and does not call `onReorder`; any other
      drop moves the dragged row to the index of the row it was dropped on.
      dnd-kit only reports ids that were registered through the sortable
      context, which are exactly the rows' ids. */
  function HandleDragEnd(items: seq<ItemData>, e: DragEndEvent): (r: DragOutcome)
    requires HasId(items, e.active)
    requires e.over.Some? ==> HasId(items, e.over.value)
    ensures e.over.None? ==> r == Unchanged
    ensures e.over == Some(e.active) ==> r == Unchanged
    ensures e.over.Some? && e.over.value != e.active ==>
      && r.Reordered?
      && |r.items| == |items|
      && multiset(r.items) == multiset(items)
      && r.items[FindIndex(items, e.over.value)] == items[FindIndex(items, e.active)]
      && r.items[FindIndex(items, e.over.value)].id == e.active
  {
    match e.over
    case None => Unchanged
    case Some(target) =>
      if e.active == target then Unchanged
      else
        var oldIndex := FindIndex(items, e.active);
        var newIndex := FindIndex(items, target);
        Reordered(Move(items, oldIndex, newIndex))
  }

  /** A completed drop changes only the stretch between the dragged row's
      old index and the target's index, where rows shift by one towards the
      old index. */
  lemma DropShiftsOnlyBetween(items: seq<ItemData>, e: DragEndEvent)
    requires HasId(items, e.active)
    requires e.over.Some? && HasId(items, e.over.value) && e.over.value != e.active
    ensures
      var r := HandleDragEnd(items, e).items;
      var a := FindIndex(items, e.active);
      var o := FindIndex(items, e.over.value);
      && (forall k :: 0 <= k < |items| && (k < Min(a, o) || Max(a, o) < k) ==> r[k] == items[k])
      && (a < o ==> forall k :: a <= k < o ==> r[k] == items[k + 1])
      && (o < a ==> forall k :: o < k <= a ==> r[k] == items[k - 1])
  {
    var a := FindIndex(items, e.active);
    var o := FindIndex(items, e.over.value);
    assert HandleDragEnd(items, e).items == Move(items, a, o);
    MoveShifts(items, a, o);
  }

  /** No two rows share an id (the list's React keys). */
  predicate DistinctIds(items: seq<ItemData>) {
    forall i, j :: 0 <= i < j < |items| ==> items[i].id != items[j].id
  }

  lemma MoveKeepsDistinctIds(items: seq<ItemData>, from: nat, to: nat)
    requires from < |items| && to < |items|
    requires DistinctIds(items)
    ensures DistinctIds(Move(items, from, to))
  {
    var moved := Move(items, from, to);
    forall i, j | 0 <= i < j < |moved|
      ensures moved[i].id != moved[j].id
    {
      MoveAt(items, from, to, i);
      MoveAt(items, from, to, j);
      MoveSourceInverse(to, from, i);
      MoveSourceInverse(to, from, j);
    }
  }

  lemma FindDistinct(items: seq<ItemData>, k: nat)
    requires DistinctIds(items) && k < |items|
    ensures FindIndex(items, items[k].id) == k
  {
  }

  /** Dragging the row back onto the row now sitting where it came from
      restores the original list, when the ids are distinct. */
  lemma DropUndo(items: seq<ItemData>, e: DragEndEvent)
    requires DistinctIds(items)
    requires HasId(items, e.active)
    requires e.over.Some? && HasId(items, e.over.value) && e.over.value != e.active
    ensures
      var a := FindIndex(items, e.active);
      var moved := HandleDragEnd(items, e).items;
      var back := DragEndEvent(e.active, Some(moved[a].id));
      && HasId(moved, e.active) && HasId(moved, moved[a].id)
      && HandleDragEnd(moved, back) == Reordered(items)
  {
    var a := FindIndex(items, e.active);
    var o := FindIndex(items, e.over.value);
    var moved := Move(items, a, o);
    MoveBack(items, a, o);
    MoveKeepsDistinctIds(items, a, o);
    FindDistinct(moved, o);
    FindDistinct(moved, a);
  }

  lemma RanksCover(r: seq<int>)
    requires forall i :: 0 <= i < |r| ==> r[i] == i + 1
    ensures forall k :: 1 <= k <= |r| ==> k in r
  {
    forall k | 1 <= k <= |r|
      ensures k in r
    {
      assert r[k - 1] == k;
    }
  }

  /** The rank column: row `index` shows `index + 1`, so the ranks are
      exactly 1..n, strictly increasing down the list. */
  function Ranks(items: seq<ItemData>): (r: seq<int>)
    ensures |r| == |items|
    ensures forall k :: k in r <==> 1 <= k <= |items|
    ensures forall i, j :: 0 <= i < j < |r| ==> r[i] < r[j]
  {
    var r := seq(|items|, index requires 0 <= index < |items| => index + 1);
    RanksCover(r);
    r
  }
}

=== FILE: prioritization_page.dfy ===
/** The backlog prioritisation screen (pages/PrioritizationPage.tsx): it
    fetches the initiatives under the current filters, turns them into list
    rows, and takes the list's reorderings as its new state. */
module PrioritizationPage {
  import opened Values
  import opened Text
  import opened Filters
  import opened PrioritizationList

  /** An initiative as the list endpoint returns it; `priority` and
      `deadline` may be missing.  `kind` is the initiative's `type`. */
  datatype ApiInitiative = ApiInitiative(
    id: int,
    title: string,
    kind: string,
    priority: Option<string>,
    status: string,
    deadline: Option<string>)

  /** The priority a row shows when the initiative has none. */
  const DefaultPriority: string := "Baixa"

  /** The deadline a row shows when the initiative has none. */
  const NoDeadline: string := "-"

  /** One row of the mapping: the id as a decimal string, a missing or empty
      priority as "Baixa" and a missing or empty deadline as "-". */
  function ToItem(a: ApiInitiative): (r: ItemData)
    ensures ParseNumber(r.id) == Finite(a.id)
    ensures r.title == a.title && r.kind == a.kind && r.status == a.status
    ensures r.priority == OrElse(a.priority, DefaultPriority) && r.priority != ""
    ensures r.deadline.Some? && r.deadline.value == OrElse(a.deadline, NoDeadline) && r.deadline.value != ""
  {
    ItemData(
      IntToString(a.id),
      a.title,
      a.kind,
      OrElse(a.priority, DefaultPriority),
      a.status,
      Some(OrElse(a.deadline, NoDeadline)))
  }

  /** `data.map(...)`: one row per initiative, in the same order. */
  function ToItems(data: seq<ApiInitiative>): (r: seq<ItemData>)
    ensures |r| == |data|
    ensures forall i :: 0 <= i < |data| ==> r[i] == ToItem(data[i])
  {
    seq(|data|, i requires 0 <= i < |data| => ToItem(data[i]))
  }

  predicate DistinctApiIds(data: seq<ApiInitiative>) {
    forall i, j :: 0 <= i < j < |data| ==> data[i].id != data[j].id
  }

  /** Distinct numeric ids stay distinct as strings, so the rows can be told
      apart by id as the drag handler needs. */
  lemma RowIdsDistinct(data: seq<ApiInitiative>)
    requires DistinctApiIds(data)
    ensures DistinctIds(ToItems(data))
  {
    var r := ToItems(data);
    forall i, j | 0 <= i < j < |r|
      ensures r[i].id != r[j].id
    {
      if r[i].id == r[j].id {
        IntToStringInjective(data[i].id, data[j].id);
      }
    }
  }

  /** Each row's id names its initiative: two rows share an id exactly when
      their initiatives do. */
  lemma RowIdsFaithful(data: seq<ApiInitiative>, i: nat, j: nat)
    requires i < |data| && j < |data|
    ensures ToItems(data)[i].id == ToItems(data)[j].id <==> data[i].id == data[j].id
  {
    if ToItems(data)[i].id == ToItems(data)[j].id {
      IntToStringInjective(data[i].id, data[j].id);
    }
  }

  datatype PageState = PageState(items: seq<ItemData>, loading: bool, filters: FilterState)

  /** The page as it mounts: no rows, loading, no filters. */
  const Initial: PageState := PageState([], true, NoFilters)

  /** What `getAll` gave back: a body that is or is not an array, or a
      thrown error. */
  datatype FetchOutcome = Returned(data: Payload<ApiInitiative>) | FetchThrew

  /** `fetchInitiatives` after the call: an array becomes the rows, anything
      else empties the list, and a thrown error keeps the rows it had. */
  function FetchDone(p: PageState, outcome: FetchOutcome): (r: PageState)
    ensures !r.loading && r.filters == p.filters
    ensures outcome.Returned? && outcome.data.ArrayOf? ==>
      |r.items| == |outcome.data.items|
      && (forall i :: 0 <= i < |r.items| ==> r.items[i] == ToItem(outcome.data.items[i]))
      && (forall i :: 0 <= i < |r.items| ==> ParseNumber(r.items[i].id) == Finite(outcome.data.items[i].id))
    ensures outcome.Returned? && outcome.data.NotArray? ==> r.items == []
    ensures outcome.FetchThrew? ==> r.items == p.items
  {
    match outcome
    case Returned(ArrayOf(data)) => p.(items := ToItems(data), loading := false)
    case Returned(NotArray) => p.(items := [], loading := false)
    case FetchThrew => p.(loading := false)
  }

  /** The page's first request carries no query parameters: the query is
      `ActiveFilters` of the current filters, and they start empty. */
  lemma FirstQueryEmpty()
    ensures ActiveFilters(Initial.filters) == map[]
  {
    NoQueryIffNoFilters(Initial.filters);
  }

  /** `onReorder={setItems}`: a completed drop replaces the rows with the
      list's reordering, which holds the same rows. */
  function OnDragEnd(p: PageState, e: DragEndEvent): (r: PageState)
    requires HasId(p.items, e.active)
    requires e.over.Some? ==> HasId(p.items, e.over.value)
    ensures r.loading == p.loading && r.filters == p.filters
    ensures multiset(r.items) == multiset(p.items)
    ensures HandleDragEnd(p.items, e).Unchanged? ==> r.items == p.items
    ensures HandleDragEnd(p.items, e).Reordered? ==>
      && e.over.Some?
      && r.items == HandleDragEnd(p.items, e).items
      && r.items[FindIndex(p.items, e.over.value)] == p.items[FindIndex(p.items, e.active)]
  {
    match HandleDragEnd(p.items, e)
    case Unchanged => p
    case Reordered(items) => p.(items := items)
  }

  /** Row ids stay distinct across drops, so every later drop still finds
      the rows it names. */
  lemma DropKeepsDistinctIds(p: PageState, e: DragEndEvent)
    requires DistinctIds(p.items)
    requires HasId(p.items, e.active)
    requires e.over.Some? ==> HasId(p.items, e.over.value)
    ensures DistinctIds(OnDragEnd(p, e).items)
  {
    if e.over.Some? && e.over.value != e.active {
      MoveKeepsDistinctIds(p.items, FindIndex(p.items, e.active), FindIndex(p.items, e.over.value));
    }
  }
}

=== FILE: reason_form.dfy ===
/** The state and the success/failure bookkeeping shared by the dialogs
    that submit a free-text reason (cancellation request, cancellation
    review, initiative review).  Each dialog keeps its own guard. */
module ReasonForm {
  import opened Values
  import opened Text

  datatype FormState = FormState(reason: string, loading: bool, error: Option<string>)

  /** What a mounted dialog starts with. */
  const Initial: FormState := FormState("", false, None)

  /** The outcome of the service call: success, or a rejection carrying the
      server's `error` field when the response had one. */
  datatype ServiceOutcome = Succeeded | Failed(serverError: Option<string>)

  /** The callbacks a submit fires: `onSuccess?.()` and `onOpenChange(false)`. */
  datatype Effects = Effects(onSuccess: bool, close: bool)

  const NoEffects: Effects := Effects(false, false)

  /** The reason is blank: `!reason.trim()` holds. */
  predicate ReasonBlank(reason: string) {
    |Trim(reason)| == 0
  }

  /** The confirm button is enabled: `!(loading || !reason.trim())`. */
  predicate ConfirmEnabled(s: FormState) {
    !(s.loading || ReasonBlank(s.reason))
  }

  /** The state while the call is in flight: loading, previous error gone. */
  function Begin(s: FormState): (r: FormState)
    ensures r.loading && r.error.None? && r.reason == s.reason
  {
    s.(loading := true, error := None)
  }

  /** The state after the call settles.  Success empties the reason and
      fires both callbacks; failure keeps the reason and shows the server's
      message, or `fallback` when the server gave none. */
  function Finish(s: FormState, outcome: ServiceOutcome, fallback: string): (r: (FormState, Effects))
    requires s.error.None?
    ensures !r.0.loading
    ensures outcome.Succeeded? ==> r.0 == FormState("", false, None) && r.1 == Effects(true, true)
    ensures outcome.Failed? ==> r.0.reason == s.reason && r.1 == NoEffects
    ensures outcome.Failed? ==> r.0.error == Some(OrElse(outcome.serverError, fallback))
  {
    match outcome
    case Succeeded => (s.(reason := "", loading := false), Effects(true, true))
    case Failed(serverError) => (s.(loading := false, error := Some(OrElse(serverError, fallback))), NoEffects)
  }

  /** A blank reason is exactly one made of whitespace only. */
  lemma BlankIffWhitespace(reason: string)
    ensures ReasonBlank(reason) <==> IsBlank(reason)
  {
  }
}

=== FILE: reason_rules.dfy ===
/** The two reason rules side by side: the change-request review queue
    wants five non-blank characters, the other dialogs only a non-blank
    reason. */
module ReasonRules {
  import opened Values
  import opened Text
  import ReasonForm
  import ChangeRequests
  import ReviewCancellation

  /** A reason of four letters is sent by the cancellation review but
      refused by the change-request review. */
  lemma FourLettersSplitTheRules()
    ensures
      var form := ReasonForm.FormState("okay", false, None);
      ReviewCancellation.HandleSubmit(Some(7), true, form, ReasonForm.Succeeded).call.Some?
    ensures
      var queue := ChangeRequests.State([], false, false, Some(ChangeRequests.Review(7, true)), "okay");
      ChangeRequests.HandleConfirmReview(queue, ChangeRequests.ReviewSucceeded).call.None?
  {
    TrimKeeps("okay");
    assert Trim("okay") == "okay";
    assert Utf16Length("okay") == 4;
  }

  /** Length is counted in UTF-16 code units: three emoji outside the Basic
      Multilingual Plane are six units, so the queue accepts them although
      they are only three characters. */
  lemma ThreeEmojiAreLongEnough()
    ensures |"\U{1F600}\U{1F600}\U{1F600}"| == 3
    ensures ChangeRequests.ReasonLongEnough("\U{1F600}\U{1F600}\U{1F600}")
  {
    var e := "\U{1F600}\U{1F600}\U{1F600}";
    TrimKeeps(e);
    assert Trim(e) == e;
    assert e[1..][1..][1..] == "";
    assert Utf16Length(e) == 6;
  }

  /** Every reason the change-request queue accepts is accepted by the
      non-blank rule too. */
  lemma LongEnoughIsNonBlank(reason: string)
    requires ChangeRequests.ReasonLongEnough(reason)
    ensures !ReasonForm.ReasonBlank(reason)
  {
  }
}

=== FILE: request_cancellation.dfy ===
/** Asking for an initiative to be cancelled
    (components/RequestCancellationModal.tsx).  The id arrives as a string. */
module RequestCancellation {
  import opened Values
  import opened ReasonForm

  /** The message shown when the server gives no `error` field. */
  const Fallback: string := "Ocorreu um erro ao solicitar o cancelamento."

  /** The request `requestCancellation` sends. */
  datatype Call = Call(initiativeId: string, reason: string)

  /** The state while the call runs, the state afterwards, the call made
      (if any) and the callbacks fired. */
  datatype Submitted = Submitted(during: FormState, after: FormState, call: Option<Call>, effects: Effects)

  /** `initiativeId` is truthy: present and not the empty string. */
  predicate HasInitiativeId(initiativeId: Option<string>) {
    initiativeId.Some? && initiativeId.value != ""
  }

  /** `handleSubmit`. */
  function HandleSubmit(initiativeId: Option<string>, s: FormState, outcome: ServiceOutcome): (r: Submitted)
    // a missing or empty id, or a blank reason, does nothing
    ensures !HasInitiativeId(initiativeId) || ReasonBlank(s.reason) ==> r == Submitted(s, s, None, NoEffects)
    ensures HasInitiativeId(initiativeId) && !ReasonBlank(s.reason) ==>
      // the old error is cleared before the call, which carries the reason as typed
      && r.during.error.None? && r.during.loading
      && r.call == Some(Call(initiativeId.value, s.reason))
      && !r.after.loading
      // success closes the dialog and resets the form
      && (outcome.Succeeded? ==> r.after.reason == "" && r.after.error.None? && r.effects == Effects(true, true))
      // failure keeps the reason and shows the server's message or the fallback
      && (outcome.Failed? ==>
            && r.after.reason == s.reason
            && r.after.error == Some(OrElse(outcome.serverError, Fallback))
            && r.effects == NoEffects)
  {
    if !HasInitiativeId(initiativeId) || ReasonBlank(s.reason) then Submitted(s, s, None, NoEffects)
    else
      var during := Begin(s);
      var (after, effects) := Finish(during, outcome, Fallback);
      Submitted(during, after, Some(Call(initiativeId.value, s.reason)), effects)
  }

  /** With an initiative id and nothing loading, the confirm button is
      enabled exactly when submitting sends the request. */
  lemma ConfirmEnabledIffSends(initiativeId: Option<string>, s: FormState, outcome: ServiceOutcome)
    requires HasInitiativeId(initiativeId) && !s.loading
    ensures ConfirmEnabled(s) <==> HandleSubmit(initiativeId, s, outcome).call.Some?
  {
  }
}

=== FILE: request_change.dfy ===
/** Asking for a locked prioritisation to be changed
    (components/RequestChangeModal.tsx).  This dialog keeps no error state
    and does not clear its reason after success. */
module RequestChange {
  import opened Values
  import opened ReasonForm

  datatype ChangeForm = ChangeForm(reason: string, loading: bool)

  /** The request `requestChange` sends: the year, the proposed order and
      the justification. */
  datatype Call = Call(year: int, newPriorityOrder: seq<int>, reason: string)

  /** The form afterwards, the call made (if any) and the callbacks fired:
      `onOpenChange(false)` then `onSuccess()`. */
  datatype Submitted = Submitted(after: ChangeForm, call: Option<Call>, effects: Effects)

  /** The send button is enabled: `!(!reason.trim() || loading)`. */
  predicate SendEnabled(s: ChangeForm) {
    !(ReasonBlank(s.reason) || s.loading)
  }

  /** `handleSubmit`; only the outcome's success or failure matters here. */
  function HandleSubmit(year: int, newPriorityOrder: seq<int>, s: ChangeForm, outcome: ServiceOutcome): (r: Submitted)
    ensures ReasonBlank(s.reason) ==> r == Submitted(s, None, NoEffects)
    ensures !ReasonBlank(s.reason) ==>
      // year and order are forwarded untouched
      && r.call == Some(Call(year, newPriorityOrder, s.reason))
      && !r.after.loading
      // the reason survives either way
      && r.after.reason == s.reason
      && (outcome.Succeeded? ==> r.effects == Effects(true, true))
      // failure: the dialog stays open and nothing is reported
      && (outcome.Failed? ==> r.effects == NoEffects)
  {
    if ReasonBlank(s.reason) then Submitted(s, None, NoEffects)
    else
      var call := Some(Call(year, newPriorityOrder, s.reason));
      match outcome
      case Succeeded => Submitted(s.(loading := false), call, Effects(true, true))
      case Failed(_) => Submitted(s.(loading := false), call, NoEffects)
  }

  /** When nothing is loading, the send button is enabled exactly when
      submitting sends the request. */
  lemma SendEnabledIffSends(year: int, order: seq<int>, s: ChangeForm, outcome: ServiceOutcome)
    requires !s.loading
    ensures SendEnabled(s) <==> HandleSubmit(year, order, s, outcome).call.Some?
  {
  }
}

=== FILE: review_cancellation.dfy ===
/** Approving or rejecting a pending cancellation request
    (components/ReviewCancellationModal.tsx). */
module ReviewCancellation {
  import opened Values
  import opened ReasonForm

  /** The message shown when the server gives no `error` field. */
  const Fallback: string := "Ocorreu um erro ao processar a revisão."

  /** The request `reviewCancellation` sends. */
  datatype Call = Call(requestId: int, approved: bool, reason: string)

  /** The state while the call runs, the state afterwards, the call made
      (if any) and the callbacks fired. */
  datatype Submitted = Submitted(during: FormState, after: FormState, call: Option<Call>, effects: Effects)

  /** `requestId` is truthy: present and not 0. */
  predicate HasRequestId(requestId: Option<int>) {
    requestId.Some? && requestId.value != 0
  }

  /** `handleSubmit`. */
  function HandleSubmit(requestId: Option<int>, approved: bool, s: FormState, outcome: ServiceOutcome): (r: Submitted)
    // a missing or zero id, or a blank reason, does nothing
    ensures !HasRequestId(requestId) || ReasonBlank(s.reason) ==> r == Submitted(s, s, None, NoEffects)
    ensures HasRequestId(requestId) && !ReasonBlank(s.reason) ==>
      // the old error is cleared before the call, which carries the reason as typed
      && r.during.error.None? && r.during.loading
      && r.call == Some(Call(requestId.value, approved, s.reason))
      && !r.after.loading
      // success closes the dialog and empties the reason
      && (outcome.Succeeded? ==> r.after.reason == "" && r.after.error.None? && r.effects == Effects(true, true))
      // failure keeps the reason and shows the server's message or the fallback
      && (outcome.Failed? ==>
            && r.after.reason == s.reason
            && r.after.error == Some(OrElse(outcome.serverError, Fallback))
            && r.effects == NoEffects)
  {
    if !HasRequestId(requestId) || ReasonBlank(s.reason) then Submitted(s, s, None, NoEffects)
    else
      var during := Begin(s);
      var (after, effects) := Finish(during, outcome, Fallback);
      Submitted(during, after, Some(Call(requestId.value, approved, s.reason)), effects)
  }

  /** With a request id and nothing loading, the confirm button is enabled
      exactly when submitting sends the review. */
  lemma ConfirmEnabledIffSends(requestId: Option<int>, approved: bool, s: FormState, outcome: ServiceOutcome)
    requires HasRequestId(requestId) && !s.loading
    ensures ConfirmEnabled(s) <==> HandleSubmit(requestId, approved, s, outcome).call.Some?
  {
  }
}

=== FILE: review_initiative.dfy ===
/** Approving or rejecting a submitted initiative
    (components/ReviewInitiativeModal.tsx). */
module ReviewInitiative {
  import opened Values
  import opened ReasonForm

  /** The message shown when the server gives no `error` field. */
  const Fallback: string := "Ocorreu um erro ao processar a avaliação."

  /** The request `reviewInitiative` sends. */
  datatype Call = Call(initiativeId: int, approved: bool, reason: string)

  /** The state while the call runs, the state afterwards, the call made
      (if any) and the callbacks fired. */
  datatype Submitted = Submitted(during: FormState, after: FormState, call: Option<Call>, effects: Effects)

  /** `initiativeId` is truthy: present and not 0. */
  predicate HasInitiativeId(initiativeId: Option<int>) {
    initiativeId.Some? && initiativeId.value != 0
  }

  /** `handleSubmit`. */
  function HandleSubmit(initiativeId: Option<int>, approved: bool, s: FormState, outcome: ServiceOutcome): (r: Submitted)
    // a missing or zero id, or a blank reason, does nothing
    ensures !HasInitiativeId(initiativeId) || ReasonBlank(s.reason) ==> r == Submitted(s, s, None, NoEffects)
    ensures HasInitiativeId(initiativeId) && !ReasonBlank(s.reason) ==>
      // the old error is cleared before the call, which carries the reason as typed
      && r.during.error.None? && r.during.loading
      && r.call == Some(Call(initiativeId.value, approved, s.reason))
      && !r.after.loading
      // success closes the dialog and empties the reason
      && (outcome.Succeeded? ==> r.after.reason == "" && r.after.error.None? && r.effects == Effects(true, true))
      // failure keeps the reason and shows the server's message or the fallback
      && (outcome.Failed? ==>
            && r.after.reason == s.reason
            && r.after.error == Some(OrElse(outcome.serverError, Fallback))
            && r.effects == NoEffects)
  {
    if !HasInitiativeId(initiativeId) || ReasonBlank(s.reason) then Submitted(s, s, None, NoEffects)
    else
      var during := Begin(s);
      var (after, effects) := Finish(during, outcome, Fallback);
      Submitted(during, after, Some(Call(initiativeId.value, approved, s.reason)), effects)
  }

  /** With an initiative id and nothing loading, the confirm button is
      enabled exactly when submitting sends the review. */
  lemma ConfirmEnabledIffSends(initiativeId: Option<int>, approved: bool, s: FormState, outcome: ServiceOutcome)
    requires HasInitiativeId(initiativeId) && !s.loading
    ensures ConfirmEnabled(s) <==> HandleSubmit(initiativeId, approved, s, outcome).call.Some?
  {
  }
}

=== FILE: sector_select.dfy ===
/** The sector picker (components/SectorSelect.tsx): how a sector id, or the
    lack of one, is written into the select's string value and read back. */
module SectorSelect {
  import opened Values
  import opened Text

  datatype Sector = Sector(id: int, name: string)

  /** The value of the "Sem setor" entry. */
  const NoSectorValue: string := "no-sector"

  /** `value?.toString() || "no-sector"`. */
  function Encode(value: Option<int>): (r: string)
    ensures value.None? ==> r == NoSectorValue
    ensures value.Some? ==> ParseNumber(r) == Finite(value.value) && r != NoSectorValue
  {
    var text := match value case Some(n) => IntToString(n) case None => "";
    if text != "" then
      assert text[0] != NoSectorValue[0];
      text
    else NoSectorValue
  }

  /** What `onChange` receives: null, or `Number(val)` (possibly NaN). */
  datatype Choice = NoSector | Chosen(number: Number)

  /** `val === "no-sector" ? null : Number(val)`. */
  function Decode(val: string): (c: Choice)
    ensures c.NoSector? <==> val == NoSectorValue
    ensures AllDigits(val) && |val| > 0 ==> c == Chosen(Finite(DigitsValue(val)))
  {
    if val == NoSectorValue then NoSector
    else
      assert AllDigits(val) && |val| > 0 ==> val[0] != NoSectorValue[0];
      Chosen(ParseNumber(val))
  }

  /** Reading back what was written gives the same choice, for every id,
      including 0 and negative ids. */
  lemma DecodeEncode(value: Option<int>)
    ensures Decode(Encode(value)) == match value case None => NoSector case Some(n) => Chosen(Finite(n))
  {
  }

  /** The entry values of the loaded sectors, in order. */
  function SectorValues(sectors: seq<Sector>): (v: seq<string>)
    ensures |v| == |sectors|
    ensures forall i :: 0 <= i < |sectors| ==> v[i] == Encode(Some(sectors[i].id))
  {
    seq(|sectors|, i requires 0 <= i < |sectors| => Encode(Some(sectors[i].id)))
  }

  /** The select's entries: "no-sector" first, then each sector's id in the
      order the sectors were loaded. */
  function Options(sectors: seq<Sector>): (r: seq<string>)
    ensures |r| == |sectors| + 1 && r[0] == NoSectorValue
    ensures r[1..] == SectorValues(sectors)
  {
    [NoSectorValue] + SectorValues(sectors)
  }

  /** Picking an entry hands `onChange` the sector it shows: null for the
      first, the sector's own id for the others. */
  lemma PickOption(sectors: seq<Sector>, i: nat)
    requires i < |sectors| + 1
    ensures Decode(Options(sectors)[i]) == if i == 0 then NoSector else Chosen(Finite(sectors[i - 1].id))
  {
    if i > 0 {
      assert Options(sectors)[i] == Options(sectors)[1..][i - 1];
      DecodeEncode(Some(sectors[i - 1].id));
    }
  }

  /** Sectors with distinct ids give distinct entries, so the selected value
      identifies one entry. */
  lemma OptionsDistinct(sectors: seq<Sector>)
    requires forall i, j :: 0 <= i < j < |sectors| ==> sectors[i].id != sectors[j].id
    ensures forall i, j :: 0 <= i < j < |Options(sectors)| ==> Options(sectors)[i] != Options(sectors)[j]
  {
    var r := Options(sectors);
    forall i, j | 0 <= i < j < |r|
      ensures r[i] != r[j]
    {
      PickOption(sectors, i);
      PickOption(sectors, j);
    }
  }
}

=== FILE: seqs.dfy ===
/** Sequence operations shared by the components: `Array.prototype.filter`
    and the single-element move that a drag-and-drop reorder performs. */
module Seqs {

  /** `s.filter(p)`: every element satisfying `p`, each with all its
      copies, and nothing else. */
  function Filter<T(!new)>(s: seq<T>, p: T -> bool): (r: seq<T>)
    ensures |r| <= |s|
    ensures forall x :: x in r <==> x in s && p(x)
    ensures forall i :: 0 <= i < |r| ==> p(r[i])
    ensures forall x :: multiset(r)[x] == if p(x) then multiset(s)[x] else 0
  {
    if |s| == 0 then []
    else if p(s[0]) then
      assert s == [s[0]] + s[1..];
      [s[0]] + Filter(s[1..], p)
    else
      assert s == [s[0]] + s[1..];
      Filter(s[1..], p)
  }

  /** `a` is obtained from `b` by deleting elements: same relative order,
      nothing added. */
  predicate IsSubsequence<T(==)>(a: seq<T>, b: seq<T>)
    decreases |b|
  {
    if |a| == 0 then true
    else if |b| == 0 then false
    else (a[0] == b[0] && IsSubsequence(a[1..], b[1..])) || IsSubsequence(a, b[1..])
  }

  lemma {:induction false} FilterIsSubsequence<T(!new)>(s: seq<T>, p: T -> bool)
    ensures IsSubsequence(Filter(s, p), s)
  {
    if |s| > 0 {
      FilterIsSubsequence(s[1..], p);
      if p(s[0]) {
        assert Filter(s, p)[1..] == Filter(s[1..], p);
      }
    }
  }

  /** Filtering with a predicate that every element satisfies changes
      nothing. */
  lemma {:induction false} FilterKeepsAll<T(!new)>(s: seq<T>, p: T -> bool)
    requires forall i :: 0 <= i < |s| ==> p(s[i])
    ensures Filter(s, p) == s
  {
    if |s| > 0 {
      FilterKeepsAll(s[1..], p);
    }
  }

  /** Predicates that agree on the elements filter alike. */
  lemma {:induction false} FilterCongruent<T(!new)>(s: seq<T>, p: T -> bool, q: T -> bool)
    requires forall i :: 0 <= i < |s| ==> p(s[i]) == q(s[i])
    ensures Filter(s, p) == Filter(s, q)
  {
    if |s| > 0 {
      FilterCongruent(s[1..], p, q);
    }
  }

  /** Filtering out an element that is present shortens the sequence. */
  lemma {:induction false} FilterShrinks<T(!new)>(s: seq<T>, p: T -> bool, x: T)
    requires x in s && !p(x)
    ensures |Filter(s, p)| < |s|
  {
    if s[0] != x {
      FilterShrinks(s[1..], p, x);
    }
  }

  /** Filtering distributes over an appended element. */
  lemma {:induction false} FilterAppend<T(!new)>(s: seq<T>, x: T, p: T -> bool)
    ensures Filter(s + [x], p) == Filter(s, p) + (if p(x) then [x] else [])
  {
    if |s| > 0 {
      assert (s + [x])[1..] == s[1..] + [x];
      FilterAppend(s[1..], x, p);
    } else {
      assert s + [x] == [x];
    }
  }

  /** The elements are pairwise distinct. */
  predicate NoDuplicates<T(==)>(s: seq<T>) {
    forall i, j :: 0 <= i < j < |s| ==> s[i] != s[j]
  }

  lemma {:induction false} FilterNoDuplicates<T(!new)>(s: seq<T>, p: T -> bool)
    requires NoDuplicates(s)
    ensures NoDuplicates(Filter(s, p))
  {
    if |s| > 0 {
      FilterNoDuplicates(s[1..], p);
      if p(s[0]) {
        var r := Filter(s, p);
        assert s[0] !in s[1..];
        forall i, j | 0 <= i < j < |r|
          ensures r[i] != r[j]
        {
          if i == 0 {
            assert r[j] in Filter(s[1..], p);
          }
        }
      }
    }
  }

  function Min(a: int, b: int): int {
    if a <= b then a else b
  }

  function Max(a: int, b: int): int {
    if a <= b then b else a
  }

  /** `arrayMove(s, from, to)`: take the element at `from` out, then insert
      it so that it lands at index `to`.  Nothing is lost or duplicated. */
  function Move<T>(s: seq<T>, from: nat, to: nat): (r: seq<T>)
    requires from < |s| && to < |s|
    ensures |r| == |s|
    ensures multiset(r) == multiset(s)
    ensures r[to] == s[from]
  {
    var x := s[from];
    var t := s[..from] + s[from + 1..];
    assert s == s[..from] + [x] + s[from + 1..];
    assert t == t[..to] + t[to..];
    assert multiset(t[..to] + [x] + t[to..]) == multiset(t) + multiset{x};
    t[..to] + [x] + t[to..]
  }

  /** Where each index of the moved list reads from in the original. */
  function MoveSource(from: nat, to: nat, k: nat): nat {
    if k == to then from
    else if k < Min(from, to) || Max(from, to) < k then k
    else if from < to then k + 1
    else k - 1
  }

  lemma MoveAt<T>(s: seq<T>, from: nat, to: nat, k: nat)
    requires from < |s| && to < |s| && k < |s|
    ensures MoveSource(from, to, k) < |s|
    ensures Move(s, from, to)[k] == s[MoveSource(from, to, k)]
  {
    var t := s[..from] + s[from + 1..];
    var r := Move(s, from, to);
    assert r == t[..to] + [s[from]] + t[to..];
    if k < to {
      assert r[k] == t[k];
    } else if k > to {
      assert r[k] == t[k - 1];
    }
  }

  /** The other elements keep their order: those strictly between the two
      positions shift by one towards `from`, and those outside the range do
      not move. */
  lemma MoveShifts<T>(s: seq<T>, from: nat, to: nat)
    requires from < |s| && to < |s|
    ensures forall k :: 0 <= k < |s| && (k < Min(from, to) || Max(from, to) < k) ==> Move(s, from, to)[k] == s[k]
    ensures from < to ==> forall k :: from <= k < to ==> Move(s, from, to)[k] == s[k + 1]
    ensures to < from ==> forall k :: to < k <= from ==> Move(s, from, to)[k] == s[k - 1]
  {
    forall k: nat | k < |s| {
      MoveAt(s, from, to, k);
    }
  }

  lemma MoveSourceInverse(from: nat, to: nat, k: nat)
    ensures MoveSource(from, to, MoveSource(to, from, k)) == k
  {
  }

  /** Moving the element back to where it came from restores the list. */
  lemma MoveBack<T>(s: seq<T>, from: nat, to: nat)
    requires from < |s| && to < |s|
    ensures Move(Move(s, from, to), to, from) == s
  {
    var m := Move(s, from, to);
    var b := Move(m, to, from);
    forall k: nat | k < |s|
      ensures b[k] == s[k]
    {
      var j := MoveSource(to, from, k);
      MoveAt(m, to, from, k);
      MoveAt(s, from, to, j);
      MoveSourceInverse(from, to, k);
    }
    assert b == s;
  }
}

=== FILE: text.dfy ===
/** The string primitives the components lean on: `trim`, ASCII case
    mapping, `includes`, and the decimal conversions `String(n)` /
    `n.toString()` and `Number(s)`.  Whitespace and letter case are
    restricted to ASCII. */
module Text {

  /** Whitespace for `trim`: space, tab, line feed, vertical tab, form feed
      and carriage return. */
  predicate IsSpace(c: char) {
    c == ' ' || 9 <= c as int <= 13
  }

  /** A string that `trim` reduces to "" — the falsy case of `!s.trim()`. */
  predicate IsBlank(s: string) {
    forall i :: 0 <= i < |s| ==> IsSpace(s[i])
  }

  function TrimStart(s: string): (r: string)
    ensures |r| <= |s| && r == s[|s| - |r|..]
    ensures |r| > 0 ==> !IsSpace(r[0])
    ensures forall i :: 0 <= i < |s| - |r| ==> IsSpace(s[i])
  {
    if |s| > 0 && IsSpace(s[0]) then TrimStart(s[1..]) else s
  }

  function TrimEnd(s: string): (r: string)
    ensures |r| <= |s| && r == s[..|r|]
    ensures |r| > 0 ==> !IsSpace(r[|r| - 1])
    ensures forall i :: |r| <= i < |s| ==> IsSpace(s[i])
  {
    if |s| > 0 && IsSpace(s[|s| - 1]) then TrimEnd(s[..|s| - 1]) else s
  }

  /** `needle` occurs in `hay` starting at offset `k`. */
  predicate OccursAt(hay: string, needle: string, k: int) {
    0 <= k <= |hay| - |needle| && hay[k..k + |needle|] == needle
  }

  /** What trimming each end leaves: the part of `s` from `k` on, cut
      before `k + |r|`, with only whitespace outside it. */
  lemma TrimEnds(s: string)
    ensures
      var t := TrimStart(s);
      var r := TrimEnd(t);
      var k := |s| - |t|;
      && OccursAt(s, r, k)
      && (forall i :: 0 <= i < k ==> IsSpace(s[i]))
      && (forall i :: k + |r| <= i < |s| ==> IsSpace(s[i]))
  {
    var t := TrimStart(s);
    var r := TrimEnd(t);
    var k := |s| - |t|;
    assert r == s[k..][..|r|];
    forall i | k + |r| <= i < |s|
      ensures IsSpace(s[i])
    {
      assert s[i] == t[i - k];
    }
  }

  /** `String.prototype.trim`: the infix left after removing the leading
      and the trailing whitespace, and only that; it has no whitespace at
      either end, and it is empty exactly when the string is blank. */
  function Trim(s: string): (r: string)
    ensures |r| <= |s|
    ensures |r| == 0 <==> IsBlank(s)
    ensures |r| > 0 ==> !IsSpace(r[0]) && !IsSpace(r[|r| - 1])
    ensures exists k :: OccursAt(s, r, k) && (forall i :: 0 <= i < k ==> IsSpace(s[i])) && (forall i :: k + |r| <= i < |s| ==> IsSpace(s[i]))
  {
    var t := TrimStart(s);
    var r := TrimEnd(t);
    TrimEnds(s);
    assert |r| == 0 ==> IsBlank(s) by {
      if |r| == 0 {
        forall i | 0 <= i < |s|
          ensures IsSpace(s[i])
        {
          assert i < |s| - |t| || |s| - |t| + |r| <= i;
        }
      }
    }
    r
  }

  /** JavaScript's `length`: the number of UTF-16 code units.  A character
      above U+FFFF is stored as a surrogate pair and counts twice. */
  function Utf16Length(s: string): (n: nat)
    ensures |s| <= n <= 2 * |s|
    ensures n == 0 <==> |s| == 0
    ensures (forall i :: 0 <= i < |s| ==> s[i] as int <= 0xFFFF) ==> n == |s|
    ensures |s| == 1 ==> n == (if s[0] as int > 0xFFFF then 2 else 1)
  {
    if |s| == 0 then 0
    else (if s[0] as int > 0xFFFF then 2 else 1) + Utf16Length(s[1..])
  }

  /** Code units add up over concatenation; with the one-character case in
      `Utf16Length`'s contract this fixes the count of every string. */
  lemma {:induction false} Utf16LengthAppend(a: string, b: string)
    ensures Utf16Length(a + b) == Utf16Length(a) + Utf16Length(b)
  {
    if |a| > 0 {
      assert (a + b)[1..] == a[1..] + b;
      Utf16LengthAppend(a[1..], b);
    } else {
      assert a + b == b;
    }
  }

  /** A string whose ends are not whitespace is left alone by `trim`. */
  lemma TrimKeeps(s: string)
    requires |s| == 0 || (!IsSpace(s[0]) && !IsSpace(s[|s| - 1]))
    ensures Trim(s) == s
  {
  }

  function LowerChar(c: char): char {
    if 'A' <= c <= 'Z' then (c as int + 32) as char else c
  }

  function UpperChar(c: char): char {
    if 'a' <= c <= 'z' then (c as int - 32) as char else c
  }

  predicate IsLower(c: char) {
    'a' <= c <= 'z'
  }

  /** `toLowerCase`, ASCII letters only. */
  function ToLower(s: string): (r: string)
    ensures |r| == |s|
    ensures forall i :: 0 <= i < |s| ==> r[i] == LowerChar(s[i])
  {
    seq(|s|, i requires 0 <= i < |s| => LowerChar(s[i]))
  }

  /** `toUpperCase`, ASCII letters only: no lower-case letter survives. */
  function ToUpper(s: string): (r: string)
    ensures |r| == |s|
    ensures forall i :: 0 <= i < |s| ==> r[i] == UpperChar(s[i])
    ensures forall i :: 0 <= i < |r| ==> !IsLower(r[i])
  {
    seq(|s|, i requires 0 <= i < |s| => UpperChar(s[i]))
  }

  /** Two strings that differ at most in the case of ASCII letters. */
  predicate SameIgnoringCase(a: string, b: string) {
    |a| == |b| && forall i :: 0 <= i < |a| ==> LowerChar(a[i]) == LowerChar(b[i])
  }

  /** `hay.includes(needle)`: some suffix of `hay` starts with `needle`. */
  predicate Contains(hay: string, needle: string)
    decreases |hay|
  {
    needle <= hay || (|hay| > 0 && Contains(hay[1..], needle))
  }

  /** Every string includes the empty string. */
  lemma ContainsEmpty(hay: string)
    ensures Contains(hay, "")
  {
  }

  /** `includes` agrees with the positional definition: the needle occurs
      at some offset of the haystack. */
  lemma {:induction false} ContainsAt(hay: string, needle: string)
    ensures Contains(hay, needle) <==> exists k :: OccursAt(hay, needle, k)
  {
    if needle <= hay {
      assert OccursAt(hay, needle, 0);
    } else if |hay| == 0 {
    } else {
      ContainsAt(hay[1..], needle);
      if Contains(hay[1..], needle) {
        var k :| OccursAt(hay[1..], needle, k);
        assert hay[1..][k..k + |needle|] == hay[k + 1..k + 1 + |needle|];
        assert OccursAt(hay, needle, k + 1);
      }
      if exists k :: OccursAt(hay, needle, k) {
        var k :| OccursAt(hay, needle, k);
        assert k != 0;
        assert hay[1..][k - 1..k - 1 + |needle|] == hay[k..k + |needle|];
        assert OccursAt(hay[1..], needle, k - 1);
      }
    }
  }

  predicate IsDigit(c: char) {
    '0' <= c <= '9'
  }

  predicate AllDigits(s: string) {
    forall i :: 0 <= i < |s| ==> IsDigit(s[i])
  }

  function DigitChar(d: nat): (c: char)
    requires d < 10
    ensures IsDigit(c)
  {
    ('0' as int + d) as char
  }

  /** The decimal digits of a natural number, most significant first, with
      no leading zero: only 0 itself is written with a first digit '0'. */
  function NatToDigits(n: nat): (r: string)
    ensures |r| >= 1 && AllDigits(r)
    ensures r[0] == '0' <==> n == 0
    decreases n
  {
    if n < 10 then [DigitChar(n)] else NatToDigits(n / 10) + [DigitChar(n % 10)]
  }

  /** The number a string of decimal digits denotes ("" denotes 0). */
  function DigitsValue(s: string): nat
    requires AllDigits(s)
  {
    if |s| == 0 then 0 else 10 * DigitsValue(s[..|s| - 1]) + (s[|s| - 1] as int - '0' as int)
  }

  lemma {:induction false} DigitsRoundTrip(n: nat)
    ensures DigitsValue(NatToDigits(n)) == n
    decreases n
  {
    if n >= 10 {
      DigitsRoundTrip(n / 10);
      var s := NatToDigits(n);
      assert s[..|s| - 1] == NatToDigits(n / 10);
    }
  }

  /** `String(n)` / `n.toString()` on an integer: its decimal digits, with
      no leading zero, after a '-' when negative; `Number` reads it back as
      `n`. */
  function IntToString(n: int): (r: string)
    ensures |r| >= 1
    ensures n >= 0 ==> AllDigits(r)
    ensures n < 0 ==> r[0] == '-' && AllDigits(r[1..])
    ensures n >= 0 ==> (r[0] == '0' <==> n == 0)
    ensures n < 0 ==> |r| >= 2 && r[1] != '0'
    ensures ParseNumber(r) == Finite(n)
  {
    if n < 0 then NegativeToString(-n)
    else
      NumberOfDigits(n);
      NatToDigits(n)
  }

  /** What `String` writes for the negative number `-m`: a minus sign, then
      the digits of `m`, which start with a non-zero digit; it reads back as
      `-m`. */
  function NegativeToString(m: nat): (r: string)
    requires m > 0
    ensures |r| >= 2 && r[0] == '-' && r[1] != '0' && AllDigits(r[1..])
    ensures ParseNumber(r) == Finite(0 - m)
  {
    var d := NatToDigits(m);
    NumberOfDigits(m);
    assert ("-" + d)[1..] == d;
    "-" + d
  }

  /** The result of JavaScript `Number(s)`: an integer, or NaN. */
  datatype Number = Finite(value: int) | NaN

  /** `Number(s)` on integer strings: surrounding whitespace is ignored, a
      blank string is 0, an optional sign precedes one or more digits, and
      anything else is NaN. */
  function ParseNumber(s: string): (r: Number)
    ensures AllDigits(s) && |s| > 0 ==> r == Finite(DigitsValue(s))
    ensures IsBlank(s) ==> r == Finite(0)
  {
    var t := Trim(s);
    assert AllDigits(s) && |s| > 0 ==> t == s by {
      if AllDigits(s) && |s| > 0 { TrimKeeps(s); }
    }
    if |t| == 0 then Finite(0)
    else if AllDigits(t) then Finite(DigitsValue(t))
    else if |t| > 1 && t[0] == '-' && AllDigits(t[1..]) then Finite(0 - DigitsValue(t[1..]))
    else if |t| > 1 && t[0] == '+' && AllDigits(t[1..]) then Finite(DigitsValue(t[1..]))
    else NaN
  }

  /** A minus sign before a digit string reads as the negated number. */
  lemma ParseNegative(d: string)
    requires |d| > 0 && AllDigits(d)
    ensures ParseNumber("-" + d) == Finite(0 - DigitsValue(d))
  {
    var s := "-" + d;
    assert s[0] == '-' && s[|s| - 1] == d[|d| - 1];
    TrimKeeps(s);
    assert s[1..] == d;
    assert !AllDigits(s) by { assert !IsDigit(s[0]); }
  }

  /** The digits of a natural number read back as that number. */
  lemma NumberOfDigits(n: nat)
    ensures ParseNumber(NatToDigits(n)) == Finite(n)
    ensures ParseNumber("-" + NatToDigits(n)) == Finite(0 - n)
  {
    DigitsRoundTrip(n);
    ParseNegative(NatToDigits(n));
  }

  /** Distinct integers have distinct decimal strings. */
  lemma IntToStringInjective(a: int, b: int)
    requires IntToString(a) == IntToString(b)
    ensures a == b
  {
    assert ParseNumber(IntToString(a)) == Finite(a);
  }
}

=== FILE: users_page.dfy ===
/** The user administration screen (pages/Users.tsx): the list fetch, the
    edit, delete and create dialogs, the user-type toggle and the count
    footer. */
module UsersPage {
  import opened Values
  import opened Text
  import opened Seqs

  datatype User = User(id: int, email: string, name: string)

  datatype EditForm = EditForm(name: string, email: string, password: string)

  datatype CreateForm = CreateForm(name: string, email: string, password: string, typeIds: seq<int>)

  /** The blank create form: no text and no user types. */
  const EmptyCreateForm: CreateForm := CreateForm("", "", "", [])

  datatype PageState = PageState(users: seq<User>, loading: bool, error: Option<string>)

  datatype EditDialog = EditDialog(open: bool, target: Option<User>, form: EditForm, loading: bool, error: Option<string>)

  datatype DeleteDialog = DeleteDialog(open: bool, target: Option<User>, loading: bool, error: Option<string>)

  datatype CreateDialog = CreateDialog(open: bool, form: CreateForm, loading: bool, error: Option<string>)

  // ---------------------------------------------------------------------
  // Fetching the list

  /** The outcome of `GET /private/users`: a response with its `success`
      flag and rows, or a thrown error (with its message when it is an
      `Error`). */
  datatype FetchOutcome = Listed(success: bool, data: seq<User>) | FetchThrew(message: Option<string>)

  const LoadFallback: string := "Erro ao carregar usuários"

  /** `fetchUsers`: a successful response replaces the list, an
      unsuccessful one keeps it, and a thrown error is reported. */
  function FetchUsers(p: PageState, outcome: FetchOutcome): (r: PageState)
    ensures !r.loading
    ensures outcome.Listed? && outcome.success ==> r.users == outcome.data && r.error == p.error
    ensures outcome.Listed? && !outcome.success ==> r.users == p.users && r.error == p.error
    ensures outcome.FetchThrew? ==> r.users == p.users
    ensures outcome.FetchThrew? && outcome.message.Some? ==> r.error == outcome.message
    ensures outcome == FetchThrew(None) ==> r.error == Some(LoadFallback)
  {
    match outcome
    case Listed(success, data) => if success then p.(users := data, loading := false) else p.(loading := false)
    case FetchThrew(message) =>
      var text := match message case Some(m) => m case None => LoadFallback;
      p.(loading := false, error := Some(text))
  }

  // ---------------------------------------------------------------------
  // Mutations and their error messages

  /** The outcome of a PUT, DELETE or POST: accepted; answered with
      `success: false`; rejected with an HTTP error response; or no
      response at all.  The message is the response body's `message`. */
  datatype MutationOutcome =
    | Accepted
    | Declined(message: Option<string>)
    | HttpError(message: Option<string>)
    | NoResponse

  const ConnectionError: string := "Erro ao conectar com o servidor"

  /** The error text a failed mutation shows: the server's message, else the
      dialog's own fallback; the connection message when nothing answered. */
  function ErrorText(outcome: MutationOutcome, fallback: string): (r: string)
    requires !outcome.Accepted?
    ensures outcome.NoResponse? ==> r == ConnectionError
    ensures !outcome.NoResponse? && outcome.message.Some? && outcome.message.value != "" ==> r == outcome.message.value
    ensures !outcome.NoResponse? && (outcome.message.None? || outcome.message.value == "") ==> r == fallback
  {
    match outcome
    case Declined(message) => OrElse(message, fallback)
    case HttpError(message) => OrElse(message, fallback)
    case NoResponse => ConnectionError
  }

  // ---------------------------------------------------------------------
  // Editing a user

  const EditFallback: string := "Erro ao atualizar usuário"

  /** `handleEdit`: open the dialog on `u`, copying name and email and
      leaving the password empty. */
  function HandleEdit(d: EditDialog, u: User): (r: EditDialog)
    ensures r.open && r.target == Some(u) && r.error.None?
    ensures r.form.name == u.name && r.form.email == u.email && r.form.password == ""
    ensures r.loading == d.loading
  {
    d.(target := Some(u), form := EditForm(u.name, u.email, ""), error := None, open := true)
  }

  /** The PUT body: name and email always, the password only when one was
      typed. */
  datatype EditPayload = EditPayload(name: string, email: string, password: Option<string>)

  function Payload(form: EditForm): (r: EditPayload)
    ensures r.name == form.name && r.email == form.email
    ensures r.password.Some? <==> form.password != ""
    ensures r.password.Some? ==> r.password.value == form.password
  {
    EditPayload(form.name, form.email, if form.password != "" then Some(form.password) else None)
  }

  datatype PutUser = PutUser(userId: int, payload: EditPayload)

  /** The dialog afterwards, the request made (if any), and whether the list
      is fetched again. */
  datatype Edited = Edited(dialog: EditDialog, call: Option<PutUser>, refresh: bool)

  /** `confirmEdit`. */
  function ConfirmEdit(d: EditDialog, outcome: MutationOutcome): (r: Edited)
    ensures d.target.None? ==> r == Edited(d, None, false)
    ensures d.target.Some? ==>
      && r.call == Some(PutUser(d.target.value.id, Payload(d.form)))
      && !r.dialog.loading
      && r.dialog.form == d.form
    ensures d.target.Some? && outcome.Accepted? ==>
      !r.dialog.open && r.dialog.target.None? && r.dialog.error.None? && r.refresh
    ensures d.target.Some? && !outcome.Accepted? ==>
      && r.dialog.open == d.open && r.dialog.target == d.target
      && r.dialog.error == Some(ErrorText(outcome, EditFallback))
      && !r.refresh
  {
    match d.target
    case None => Edited(d, None, false)
    case Some(u) =>
      var call := Some(PutUser(u.id, Payload(d.form)));
      if outcome.Accepted? then
        Edited(d.(open := false, target := None, loading := false, error := None), call, true)
      else
        Edited(d.(loading := false, error := Some(ErrorText(outcome, EditFallback))), call, false)
  }

  // ---------------------------------------------------------------------
  // Deleting a user

  const DeleteFallback: string := "Erro ao deletar usuário"

  /** `handleDelete`: open the confirmation on `u`. */
  function HandleDelete(d: DeleteDialog, u: User): (r: DeleteDialog)
    ensures r.open && r.target == Some(u) && r.error.None? && r.loading == d.loading
  {
    d.(target := Some(u), error := None, open := true)
  }

  datatype Deleted = Deleted(dialog: DeleteDialog, call: Option<int>, refresh: bool)

  /** `confirmDelete`: `call` is the id sent to `DELETE /private/users/:id`. */
  function ConfirmDelete(d: DeleteDialog, outcome: MutationOutcome): (r: Deleted)
    ensures d.target.None? ==> r == Deleted(d, None, false)
    ensures d.target.Some? ==> r.call == Some(d.target.value.id) && !r.dialog.loading
    ensures d.target.Some? && outcome.Accepted? ==>
      !r.dialog.open && r.dialog.target.None? && r.dialog.error.None? && r.refresh
    ensures d.target.Some? && !outcome.Accepted? ==>
      && r.dialog.open == d.open && r.dialog.target == d.target
      && r.dialog.error == Some(ErrorText(outcome, DeleteFallback))
      && !r.refresh
  {
    match d.target
    case None => Deleted(d, None, false)
    case Some(u) =>
      if outcome.Accepted? then
        Deleted(d.(open := false, target := None, loading := false, error := None), Some(u.id), true)
      else
        Deleted(d.(loading := false, error := Some(ErrorText(outcome, DeleteFallback))), Some(u.id), false)
  }

  // ---------------------------------------------------------------------
  // Creating a user

  const CreateFallback: string := "Erro ao criar usuário"

  /** `handleAddUser`: open the dialog on a blank form. */
  function HandleAddUser(c: CreateDialog): (r: CreateDialog)
    ensures r.open && r.form == EmptyCreateForm && r.error.None? && r.loading == c.loading
  {
    c.(form := EmptyCreateForm, error := None, open := true)
  }

  datatype Created = Created(dialog: CreateDialog, call: CreateForm, refresh: bool)

  /** `confirmCreate`: the form is posted as it stands; success closes the
      dialog and blanks the form, failure keeps both. */
  function ConfirmCreate(c: CreateDialog, outcome: MutationOutcome): (r: Created)
    ensures r.call == c.form && !r.dialog.loading
    ensures outcome.Accepted? ==>
      !r.dialog.open && r.dialog.form == EmptyCreateForm && r.dialog.error.None? && r.refresh
    ensures !outcome.Accepted? ==>
      && r.dialog.open == c.open && r.dialog.form == c.form
      && r.dialog.error == Some(ErrorText(outcome, CreateFallback))
      && !r.refresh
  {
    if outcome.Accepted? then
      Created(c.(open := false, form := EmptyCreateForm, loading := false, error := None), c.form, true)
    else
      Created(c.(loading := false, error := Some(ErrorText(outcome, CreateFallback))), c.form, false)
  }

  // ---------------------------------------------------------------------
  // The user-type checkboxes

  function IsNot(t: int): int -> bool {
    x => x != t
  }

  /** Toggling a type id: a present id is removed everywhere it occurs, an
      absent one is appended.  Membership flips for `t` and for `t` only. */
  function Toggle(ids: seq<int>, t: int): (r: seq<int>)
    ensures t in r <==> t !in ids
    ensures forall x :: x != t ==> (x in r <==> x in ids)
    ensures t in ids ==> IsSubsequence(r, ids) && |r| < |ids|
    ensures t in ids ==> forall x :: multiset(r)[x] == if x != t then multiset(ids)[x] else 0
    ensures t !in ids ==> r == ids + [t]
  {
    if t in ids then
      FilterIsSubsequence(ids, IsNot(t));
      FilterShrinks(ids, IsNot(t), t);
      Filter(ids, IsNot(t))
    else ids + [t]
  }

  /** `handleTypeToggle`: only the form's type ids change. */
  function HandleTypeToggle(c: CreateDialog, t: int): (r: CreateDialog)
    ensures r.form.typeIds == Toggle(c.form.typeIds, t)
    ensures r.form.name == c.form.name && r.form.email == c.form.email && r.form.password == c.form.password
    ensures r.open == c.open && r.loading == c.loading && r.error == c.error
  {
    c.(form := c.form.(typeIds := Toggle(c.form.typeIds, t)))
  }

  /** Ticking an unticked type and then unticking it restores the list. */
  lemma {:induction false} ToggleTwiceAbsent(ids: seq<int>, t: int)
    requires t !in ids
    ensures Toggle(Toggle(ids, t), t) == ids
  {
    FilterAppend(ids, t, IsNot(t));
    FilterKeepsAll(ids, IsNot(t));
  }

  /** A duplicate-free list of type ids stays duplicate-free. */
  lemma ToggleKeepsNoDuplicates(ids: seq<int>, t: int)
    requires NoDuplicates(ids)
    ensures NoDuplicates(Toggle(ids, t))
  {
    if t in ids {
      FilterNoDuplicates(ids, IsNot(t));
    }
  }

  // ---------------------------------------------------------------------
  // The footer

  /** "s" when the count is not 1. */
  function Plural(n: int): string {
    if n != 1 then "s" else ""
  }

  /** "{n} usuário{s} encontrado{s}". */
  function Footer(n: nat): string {
    IntToString(n) + " usuário" + Plural(n) + " encontrado" + Plural(n)
  }

  /** The footer ends in the plural "s" exactly when the count is not 1. */
  lemma FooterPlural(n: nat)
    ensures |Footer(n)| > 0
    ensures Footer(n)[|Footer(n)| - 1] == 's' <==> n != 1
  {
  }
}

=== FILE: values.dfy ===
/** Values that the TypeScript code handles as `T | null`, `T | undefined`, or
    as JavaScript truthiness, written out explicitly. */
module Values {

  /** `null` / `undefined` versus a present value. */
  datatype Option<+T> = None | Some(value: T)

  /** The shape of an API payload field that the code checks with
      `Array.isArray`: either an array of records, or anything else. */
  datatype Payload<+T> = ArrayOf(items: seq<T>) | NotArray

  /** JavaScript `x || fallback` where `x` is an optional string: both a
      missing value and the empty string are falsy and give the fallback. */
  function OrElse(x: Option<string>, fallback: string): (r: string)
    ensures x.Some? && x.value != "" ==> r == x.value
    ensures x.None? || x.value == "" ==> r == fallback
  {
    match x
    case Some(v) => if v != "" then v else fallback
    case None => fallback
  }

  /** JavaScript `payload || []` for a list field that may be absent. */
  function OrEmpty<T>(x: Option<seq<T>>): (r: seq<T>)
    ensures x.Some? ==> r == x.value
    ensures x.None? ==> r == []
  {
    match x
    case Some(v) => v
    case None => []
  }
}
